=== FILE: README.md ===
# chat-app-server in Dafny

This is a model of the request logic and realtime layer of a chat backend built on
Express, Mongoose and socket.io. The model covers these parts:

- **Realtime layer** (`src/index.js`, `src/lib/helper.js`, `src/utils/socket.js`):
  - the presence registry, made of the user-to-socket map `userSocketIds` and the `onlineUsers` set;
  - the socket handshake;
  - the NEW_MESSAGE, START_TYPING, STOP_TYPING and ONLINE_USERS handlers and disconnection;
  - the REST handlers' `emitEvent`.
- **Controllers**: the group, chat, message, account, friend-request and admin handlers, over an
  in-memory store with one sequence per collection.
- **Request gatekeeping**:
  - the declarative validation rules and `validatorHandler`;
  - the authentication middlewares;
  - the error middleware.

Modules, one per source file or component:

| module | file | models |
|---|---|---|
| `Base` | base.dfy | records, error objects, payloads, event names, shared sequence operations |
| `Helper` | helper.dfy | `src/lib/helper.js` |
| `Realtime` | realtime.dfy | `src/index.js` (the socket part) and `src/utils/socket.js` |
| `Auth` | auth.dfy | `src/middlewares/authMiddleware.js` |
| `ErrorMiddleware` | errors.dfy | `src/middlewares/errorMiddleware.js` |
| `Validation` | validator.dfy | `src/utils/validator.js` |
| `Store` | store.dfy | the Mongoose collections and the lookups the handlers issue |
| `ChatController` | chats.dfy | `src/controllers/chatController.js` |
| `UserController` | users.dfy | `src/controllers/userController.js` |
| `AdminController` | admin.dfy | `src/controllers/adminController.js` |

Conventions used throughout:

- **Errors.** A handler's error is an `ApiError` with a name, a status, a message and a path.
  - `new ErrorHandler(code, message)` is `HttpError(code, message)`.
  - A property read of null (a TypeError) is `NullAccess`. It has no status, so the error middleware answers 500.
  - An `ErrorHandler` built with one argument holds its text in the status slot (`Label`). Such a status is no HTTP code, so the client gets a 500 from Express's final handler.
- **Handler shape.** A handler that writes to the database has two parts:
  - a decision function (`Plan…`, `Decide…`) that returns the error or the records to save;
  - a method on `Store.Database` that applies the decision and returns the notices the handler emits.
- **Things the model cannot compute** are parameters:
  - the clock, `uuid()` and the random creator draw;
  - `jwt.sign` and `jwt.verify`, the password check and the pattern match;
  - the file store's answers.

## Model

| member | source | states |
|---|---|---|
| `Helper.GetUserSocket` | src/lib/helper.js:3-4 | One entry per input position: the registered socket of that user, or undefined for an unregistered user, which is kept. A missing argument gives an empty list. |
| `Helper.GetBase64` | src/lib/helper.js:6-7 | The URL is laid out as `data:`, then the mime type, then `;base64,`, then the encoded text, each at its own offsets and nothing else. |
| `Helper.DataUrlRoundTrip` | src/lib/helper.js:6-7 | The data URL `data:<mimetype>;base64,<encoded>` splits back into the same mime type and encoding. |
| `Realtime.Presence.Connect` | src/index.js:89-91 | The user's entry becomes the new socket, overwriting any earlier entry (last connect wins). Other users' entries are unchanged. The user joins the online set. |
| `Realtime.Presence.Disconnect` | src/index.js:139-141 | The user leaves both the map and the online set, whichever socket was registered. Every other user is unchanged. |
| `Realtime.ConnectKeepsConsistent` | src/index.js:90-91 | A connect keeps the map's keys equal to the online users, each listed once. |
| `Realtime.DisconnectKeepsConsistent` | src/index.js:140-141 | A disconnect keeps the map's keys equal to the online users, each listed once. |
| `Realtime.ReplayConsistent` | src/index.js:88-143 | After any sequence of connects and disconnects, the map's keys are exactly the online users. |
| `Realtime.ReplayResolves` | src/index.js:88-143 | After any history, a user maps to the socket of their last connection not followed by a disconnection. A user is online exactly when such a connection exists. |
| `Realtime.StaleDisconnectDropsNewerSocket` | src/index.js:139-141 | If a user connects twice and the older socket disconnects, the user is offline and unmapped even though the newer socket is live. |
| `Realtime.Recipients` | src/utils/socket.js:3-6 | The receiving sockets are live and never excluded ones. An empty target list reaches every live socket. Otherwise exactly the live listed sockets are reached. |
| `Realtime.ResolvedRecipients` | src/index.js:110-116 | Addressing a non-empty user list reaches a socket if and only if it is the registered socket of some listed user and is not excluded. |
| `Realtime.AllOfflineReachesNobody` | src/lib/helper.js:4 | A list of only unregistered users resolves to undefined entries that reach no socket. |
| `Realtime.EmptyListBroadcasts` | src/lib/helper.js:3 | An empty or missing member list reaches every live socket except the excluded ones. |
| `Realtime.Server.constructor` | src/index.js:36-38 | The server starts with an empty registry, no sockets, no emissions and no stored messages. |
| `Realtime.Server.Connect` | src/index.js:88-91 | The registry becomes the old registry's `Connect`, the socket joins the live sockets and the invariant is kept. |
| `Realtime.Server.Handshake` | src/index.js:80-86 | Only a socket that `socketAuthenticator` accepts is connected, with the user it found. A refused socket changes nothing. |
| `Realtime.Server.Disconnect` | src/index.js:139-143 | The user leaves the registry even if a newer socket of theirs lives on. ONLINE_USERS with the remaining users goes to every other live socket. |
| `Realtime.Server.OnNewMessage` | src/index.js:93-122 | NEW_MESSAGE (content, fresh id, sender id and name, chat id, timestamp) and then NEW_MESSAGE_ALERT `{chatId}` go to the same resolved sockets before storing. Only `{chatId, content, sender}` is stored. A failed store raises `ErrorHandler(500)` inside the socket listener, where nothing catches it; no stored message results and the emissions stand. |
| `Realtime.Server.OnTyping` | src/index.js:124-132 | `{chatId}` goes to the resolved member sockets, and never to the sending socket. |
| `Realtime.Server.OnOnlineUsers` | src/index.js:134-137 | A snapshot of the online users goes to the resolved sockets. The snapshot holds exactly the registry's users. |
| `Realtime.Server.Notify` | src/utils/socket.js:3-6 | `emitEvent` delivers the event and data to the sockets resolved from the user list. |
| `Auth.AdminSecretKey` | src/index.js:32-34 | The admin key is ADMIN_SECRET_KEY when it is set and non-empty, else the built-in fallback. It is never empty. |
| `Auth.SocketAuthenticator` | src/middlewares/authMiddleware.js:67-89 | An incoming error is forwarded unchanged, and a missing "Chat" cookie gives 401. A socket user is set if and only if no error is passed. The user is set exactly when the token verifies and the lookup finds a user, and it is that user. Every other outcome is the same 401. |
| `Auth.BearerTokenRoundTrip` | src/middlewares/authMiddleware.js:15 | For "Bearer &lt;t&gt;…", `split(" ")[1]` yields the token up to the next space. It yields exactly `t` when nothing but a space follows. |
| `Auth.GetAuthHeaders` | src/middlewares/authMiddleware.js:7-31 | Only a header starting with "Bearer" is read, and otherwise the answer is 401. It passes if and only if the second piece verifies and the lookup returns, and the stored user is what the lookup returned. Any failure is a 401. |
| `Auth.GetAuthCookies` | src/middlewares/authMiddleware.js:34-48 | A missing "Chat" cookie gives 401 "Not authorized". Verify and lookup errors pass through unchanged. A successful lookup passes, and what it returned is stored as the user, so a lookup that finds no user is not refused. |
| `Auth.GetAdminAuthCookiesAsWritten` | src/middlewares/authMiddleware.js:51-65 | A missing admin-token cookie gives 401 "Please Provide key". The request passes if and only if the token verifies and its secretKey equals the raw environment value, which may be undefined. A verify error passes through unchanged, and any other key gives 401 "Wrong input". |
| `Auth.AdminTokenRefusedWithoutEnvKey` | src/middlewares/authMiddleware.js:60 | With ADMIN_SECRET_KEY unset, a token carrying the fallback key is refused with "Wrong input". |
| `Auth.SessionTokenPassesAdminCheckWithoutEnvKey` | src/middlewares/authMiddleware.js:60 | With ADMIN_SECRET_KEY unset, a user's session token, which has no secretKey, passes the admin check. |
| `Auth.GetAdminAuthCookies` | src/middlewares/authMiddleware.js:51-65 | Corrected: the request passes if and only if the admin-token verifies and carries exactly the admin key that the login compares against. A verify error passes through unchanged. Any other key, or none, gives 401 "Wrong input". |
| `ErrorMiddleware.Normalised` | src/middlewares/errorMiddleware.js:4-10 | A falsy message becomes "Internal Server Error" and a falsy status becomes 500; other values are kept. A CastError always gets 400 and "Invalid format of &lt;path&gt;". The status is never falsy afterwards. |
| `ErrorMiddleware.NormalisedIdempotent` | src/middlewares/errorMiddleware.js:4-10 | Normalising twice is the same as normalising once. |
| `ErrorMiddleware.UncaughtErrorIs500` | src/middlewares/errorMiddleware.js:5 | A thrown runtime error, which has no status, is answered with 500. |
| `ErrorMiddleware.Respond` | src/middlewares/errorMiddleware.js:12-15 | A JSON answer is sent if and only if the status is a three-digit code. It carries that status with `success: false`, and its message is the whole error in "DEVELOPMENT" mode and the error's text otherwise. Any other status makes `res.json` throw, and Express's final handler answers 500. |
| `ErrorMiddleware.LabelStatusIs500` | src/middlewares/errorMiddleware.js:12-15 | An error whose status slot holds text, like the one-argument `ErrorHandler` of `createGroupChat`, keeps that status through normalising and reaches the client as a 500 from the final handler. |
| `ErrorMiddleware.ErrorObject.Normalise` | src/middlewares/errorMiddleware.js:4-10 | The in-place updates leave the object equal to `Normalised` of its old value. |
| `ErrorMiddleware.HandleError` | src/middlewares/errorMiddleware.js:3-16 | The error is normalised in place and answered by `Respond`. The response status is always a three-digit code, and a JSON answer carries the error's final status. |
| `Validation.StepMessages` | src/utils/validator.js:17-20 | A check reports nothing exactly when it passes. Otherwise it reports only its own message: once per failing element for a standard check, at most once for `isArray`. |
| `Validation.ChainMessages` | src/utils/validator.js:31-34 | A chain reports nothing exactly when every one of its checks passes. |
| `Validation.Errors` | src/utils/validator.js:6-11 | The collected messages are empty exactly when every rule passes. |
| `Validation.ValidatorHandler` | src/utils/validator.js:5-14 | `next()` is called with no error if and only if every rule passes. Otherwise the error is 400 with every message joined by ", ". |
| `Validation.RegisterAdmits` | src/utils/validator.js:16-22 | Registration passes if and only if name, username, password and bio are filled. The avatar is never checked. |
| `Validation.LoginAdmits` | src/utils/validator.js:24-27 | Login passes if and only if username and password are filled. |
| `Validation.CreateGroupAdmits` | src/utils/validator.js:29-35 | Group creation passes if and only if the name is filled and the members are an array of 2 to 100 filled entries. |
| `Validation.AddMembersAdmits` | src/utils/validator.js:37-43 | Adding members passes if and only if the chatId is filled and the members are an array of 1 to 100 filled entries. |
| `Validation.RemoveMemberAdmits` | src/utils/validator.js:45-48 | Removal passes if and only if chatId and userId are filled. |
| `Validation.IdParamAdmits` | src/utils/validator.js:50-68 | The access, leave, delete and get-messages validators pass if and only if the `id` parameter is filled. |
| `Validation.RenameGroupAdmits` | src/utils/validator.js:56-59 | Renaming passes if and only if the `id` parameter and the name are filled. |
| `Validation.SendAttachmentsAdmits` | src/utils/validator.js:63-66 | Sending attachments passes if and only if chatId is filled. The files are never checked. |
| `Validation.SendRequestAdmits` | src/utils/validator.js:70-72 | A friend request passes if and only if userId is filled. |
| `Validation.AcceptRequestAdmits` | src/utils/validator.js:74-81 | Accepting passes if and only if requestId is filled and `accept` is filled and boolean text. |
| `Validation.EmptyGroupRequestMessage` | src/utils/validator.js:29-35 | An empty group-creation body gives the three messages in rule order, joined by ", " into one 400 error. |
| `Store.FindUser` | src/controllers/chatController.js:211 | A found user is in the store with the requested id. Nothing found means no stored user has that id. |
| `Store.Populate` | src/controllers/adminController.js:82-84 | Populated references are stored users referenced by the list, never more of them than there are references. Every reference that resolves is kept, and a single reference gives its user or nothing. |
| `Store.PopulateAppend` | src/controllers/adminController.js:82-84 | Populating two lists one after the other gives the two results one after the other, so the users come in reference order. |
| `Store.PopulateAllFound` | src/controllers/adminController.js:82-84 | When every reference resolves, nothing is dropped and the users come in reference order. |
| `ChatController.PlanGroupChat` | src/controllers/chatController.js:73-101 | A missing name or member list gives the one-argument error, and fewer than two members gives 400. Otherwise the group's members are the listed users then the requester, who is its creator. ALERT goes to all members and REFETCH_CHATS to the listed users. |
| `ChatController.CreateGroupChat` | src/controllers/chatController.js:89-99 | Only a successful plan adds the chat, and the other collections are unchanged. |
| `ChatController.Newcomers` | src/controllers/chatController.js:182-184 | An id already in the chat is dropped; any other id is kept with its multiplicity in the list. |
| `ChatController.NewcomersInListOrder` | src/controllers/chatController.js:182-184 | Filtering distributes over concatenation, so the newcomers keep the list's order. |
| `ChatController.PlanAddToGroup` | src/controllers/chatController.js:169-197 | The checks run in source order: missing chat or creator, then 403 for a non-creator, then an empty list, then no new ids, then more than 100 members. Each gives its own error if and only if it is reached. On success the members become the old members followed by exactly `Newcomers` of the list, and nothing else changes. |
| `ChatController.AddKeepsCreator` | src/controllers/chatController.js:191 | Appending members keeps the creator a member. |
| `ChatController.AddToGroup` | src/controllers/chatController.js:191-201 | The chat is replaced in place by the plan's result, and the new member list is alerted. A refused plan saves nothing. |
| `ChatController.WithoutMember` | src/controllers/chatController.js:222-235 | Every occurrence of the leaving user is removed and the rest keep their multiplicities. When the creator leaves, the new creator is one of the remaining members, or none if nobody remains. Otherwise the creator is unchanged. |
| `ChatController.PlanRemoveFromGroup` | src/controllers/chatController.js:207-235 | Creator only (403), and the target must be a member (400). Removal succeeds exactly then and gives `WithoutMember`. |
| `ChatController.PlanLeaveGroup` | src/controllers/chatController.js:251-273 | A missing chat or a non-member gives 400, and a group with no creator cannot be read. It succeeds exactly otherwise: the user is no longer a member, and a departing creator is replaced by a remaining member. |
| `ChatController.RemoveFromGroup` | src/controllers/chatController.js:233-246 | The chat is saved with the plan's result, and the remaining members are alerted with the removed user's name. |
| `ChatController.LeaveGroup` | src/controllers/chatController.js:273-277 | The chat is saved with the plan's result, and the remaining members are alerted. |
| `ChatController.PublicIdsComplete` | src/controllers/chatController.js:149-151 | Every attachment of every collected message contributes its public id. |
| `ChatController.PublicIdsSound` | src/controllers/chatController.js:149-151 | Every collected id belongs to an attachment of one of the messages. |
| `ChatController.CollectPublicIds` | src/controllers/chatController.js:147-151 | The nested loops collect exactly `PublicIds`, message by message and in order. |
| `ChatController.DeleteChat` | src/controllers/chatController.js:129-166 | A missing chat and a non-member give 404 and change nothing. Otherwise the ids of the chat's attachments are handed to the file store, and the chat and all its messages are deleted. The members other than the requester are alerted, unless the file store failed, in which case its error is raised after the deletions. |
| `ChatController.PlanAttachment` | src/controllers/chatController.js:282-326 | A missing chat gives 404 and no files give 400, and upload errors pass through. Otherwise a message with empty content and the uploads is stored and announced to every chat member, with the sender's name and avatar. |
| `ChatController.OutsiderCanSendAttachment` | src/controllers/chatController.js:285-295 | The sender's membership is never checked. |
| `ChatController.SendAttachment` | src/controllers/chatController.js:315-320 | Only a successful plan stores the message. |
| `ChatController.CeilDiv` | src/controllers/chatController.js:391 | `Math.ceil(a / b)` for a positive divisor is the least `q` with `a <= q * b`. For a negative divisor it is the non-positive `q` with `q * b <= a < (q - 1) * b`, again the ceiling of the quotient. |
| `ChatController.Window` | src/controllers/chatController.js:381-396 | Sorting newest first, skipping, limiting (0 means all, a negative n means abs(n)) and reversing gives the contiguous stretch ending `skip` items before the newest, oldest first. |
| `ChatController.PopulateSender` | src/controllers/chatController.js:386 | A page message keeps the stored message's fields. Its sender is null exactly when no stored user has the sender id, and otherwise is that user's id, name and avatar. |
| `ChatController.GetMessages` | src/controllers/chatController.js:362-397 | A missing chat gives 404 and a non-member gives 400. The defaults are page 1 and 20 per page. The answer succeeds if and only if the skip `(page-1)*perPage` is non-negative; a negative skip is refused by the database. The page is the `Window` at skip `(page-1)*perPage`, each message with its sender populated (`PopulateSender`), and the page count is the ceiling of the count over the page size, for a negative page size as well. |
| `ChatController.PageFilledIffWithinTotal` | src/controllers/chatController.js:377-391 | With a positive page size, page p holds messages if and only if p is at most the reported number of pages. |
| `ChatController.ViewOf` | src/controllers/chatController.js:24-40 | A listing entry's members are exactly `Others` of the populated members, which omits the requester and keeps the rest in order. Its avatar is either the first three members' urls or the urls of the other members. |
| `Store.Others` | src/controllers/chatController.js:36-38 | Every user whose id is not the requester's is kept with its multiplicity, and the requester is dropped. |
| `Store.OthersInOrder` | src/controllers/chatController.js:36-38 | Dropping the requester distributes over concatenation, so the others keep their order. |
| `ChatController.FetchChats` | src/controllers/chatController.js:14-43 | There is one entry per chat the requester belongs to. A group shows the first three avatars and a one-to-one chat the other member's. |
| `ChatController.GetMyGroups` | src/controllers/chatController.js:46-70 | There is one entry per group the requester belongs to, with the first three avatars. |
| `ChatController.ListingsOmitMe` | src/controllers/chatController.js:36-38 | No entry of either listing shows the requester among its members. |
| `UserController.SessionCookie` | src/controllers/userController.js:41-44 | The "Chat" cookie carries the signed id and lives 30 days (2592000000 ms). |
| `UserController.LogoutCookie` | src/controllers/userController.js:89 | Logout sets "Chat" to "" with maxAge 0. |
| `UserController.FindByUsername` | src/controllers/userController.js:18 | A found user has that username. Nothing found means no stored user has it. |
| `UserController.PlanRegisterAsWritten` | src/controllers/userController.js:12-56 | A missing name, username or password gives 400. A taken username gives a TypeError from calling the error class without `new`. |
| `UserController.DuplicateRegistrationIs500` | src/controllers/userController.js:20-21 | As written, registering a taken username is answered with 500. |
| `UserController.PlanRegister` | src/controllers/userController.js:12-56 | Corrected: a missing field gives 400 and a taken username gives 400 "User Already Exist.". Registration succeeds exactly otherwise with a successful upload, creating the user and a 30-day session cookie. |
| `UserController.RegisterReadingsAgree` | src/controllers/userController.js:18-21 | Both readings refuse a taken username and differ only in the error. |
| `UserController.RegisterKeepsUsernamesDistinct` | src/controllers/userController.js:18-36 | A successful registration keeps the stored usernames distinct. |
| `UserController.RegisterUser` | src/controllers/userController.js:30-36 | Only a successful plan adds the user. |
| `UserController.LoginUser` | src/controllers/userController.js:59-85 | Missing fields give 400. Login succeeds if and only if the first user with that username accepts the password, and otherwise gives 404 "Invalid Credentials". The cookie is the 30-day session cookie. |
| `UserController.Search` | src/controllers/userController.js:112-127 | A user is returned if and only if it matches the pattern, is not the requester, and shares no one-to-one chat with the requester. |
| `UserController.PlanSendRequest` | src/controllers/userController.js:130-155 | The request is refused with 400 exactly when the first request found between the two users, either way round, is pending. Otherwise a pending request from sender to receiver is created and NEW_REQUEST goes to exactly `[userId]`. |
| `UserController.NoPendingAllowsRequest` | src/controllers/userController.js:139 | With no pending request between the two users, the request goes through. |
| `UserController.AcceptedRequestShadowsPending` | src/controllers/userController.js:132-141 | Only the first match is inspected, so an accepted request stored before a pending one lets a duplicate through. |
| `UserController.SendRequest` | src/controllers/userController.js:143-149 | Only an allowed request is stored, and its notice is returned. |
| `UserController.DecideRequest` | src/controllers/userController.js:158-195 | A missing request gives 400, a missing receiver cannot be read, and a caller other than the receiver gives 400. A truthy `accept` accepts, creating the chat "&lt;sender&gt;-&lt;receiver&gt;" with members `[sender, receiver]` (a missing sender cannot be read). A falsy `accept` rejects. |
| `UserController.FalseTextAccepts` | src/controllers/userController.js:174 | The text "false" passes the validator's boolean check and, being truthy, accepts the request. |
| `UserController.AcceptRequest` | src/controllers/userController.js:174-188 | Accepting marks the request accepted in place before the chat is created. Rejecting deletes the request. A refusal changes nothing. |
| `UserController.OtherMember` | src/controllers/userController.js:222-229 | The friend is the first populated member other than the caller. A chat with no such member cannot be read. |
| `UserController.FriendList` | src/controllers/userController.js:221-230 | There is one friend per chat, in order, or a failure if any chat has no other member. |
| `UserController.GetMyFriends` | src/controllers/userController.js:211-251 | The friends come from the caller's one-to-one chats. With a chatId, exactly the friends not among that chat's members are kept, and an unknown chat cannot be read. It succeeds exactly when every one-to-one chat has another member and a given chatId names a chat. |
| `AdminController.VerifyAdmin` | src/controllers/adminController.js:16-36 | A missing or mismatched key gives 401 "Invalid Admin Key". Otherwise the admin-token cookie carries the signed key for 15 days (1296000000 ms). |
| `AdminController.AdminLogoutCookie` | src/controllers/adminController.js:39-51 | Logout clears the admin-token cookie. |
| `AdminController.AdminLoginRoundTrip` | src/controllers/adminController.js:19-32 | With the corrected middleware, the cookie the admin login sets opens the admin routes, whatever the environment holds. |
| `AdminController.AdminLoginLockedOutWithoutEnvKey` | src/middlewares/authMiddleware.js:58-62 | As written, with ADMIN_SECRET_KEY unset, the login succeeds with the fallback key and its cookie is then refused. |
| `AdminController.AllUsers` | src/controllers/adminController.js:54-78 | There is one row per user in store order, with its groups and friends counts. |
| `AdminController.GroupsAndFriends` | src/controllers/adminController.js:59-62 | A user's groups plus friends equals the number of chats listing the user, which is at most the number of chats. |
| `AdminController.TotalMessagesAsWritten` | src/controllers/adminController.js:88 | Counting by a path no message has gives all messages with strictQuery on and none with it off. |
| `AdminController.TotalMessagesAsWrittenIsWrong` | src/controllers/adminController.js:88 | Under either setting, the written count disagrees with a chat's own message count. |
| `AdminController.TotalsCoverMessages` | src/controllers/adminController.js:86-107 | With the corrected count and distinct chat ids, the per-chat totals add up to the number of messages in listed chats: each is counted once. |
| `AdminController.CreatorOf` | src/controllers/adminController.js:99-102 | A missing creator, or one with no name, shows as "None". A found creator shows its own name (or "None" for an empty one) and its avatar url. The avatar is "" when there is no creator. |
| `AdminController.ChatRowOf` | src/controllers/adminController.js:87-105 | Corrected: messages are counted by `chatId`, unlike line 88. The avatar is exactly the first three urls of the populated members, and the member list is their views. `totalMembers` is the populated member count, which equals the member list when all resolve. The creator defaults as above, and `totalMessages` is the chat's message count. |
| `AdminController.AllChats` | src/controllers/adminController.js:81-113 | Corrected: as in `ChatRowOf`, messages are counted by `chatId`. There is one row per chat in store order. |
| `AdminController.MessageRowOf` | src/controllers/adminController.js:121-135 | A row can be read if and only if its chat and sender exist. It copies the message's fields and the chat's groupChat flag. The sender is shown with the stored sender's id, name and avatar url. |
| `AdminController.ReverseInPlace` | src/controllers/adminController.js:137 | The array ends as the reverse of its old contents. |
| `AdminController.Reversed` | src/controllers/adminController.js:137 | Copying the rows into an array and reversing it there yields the reverse of the list. |
| `AdminController.AllMessages` | src/controllers/adminController.js:116-144 | The listing is every message's row in reverse store order. One unreadable message fails the listing with a TypeError. |
| `AdminController.SlotRange` | src/controllers/adminController.js:166-170 | A fetched message's slot is between -1 and 6. It is -1 exactly at seven days old, and 6 when it is less than a day old. |
| `AdminController.DailyHistogram` | src/controllers/adminController.js:164-171 | The histogram has seven slots, and slot k counts the fetched messages whose age in whole days is 6-k. |
| `AdminController.SeventhDayDropped` | src/controllers/adminController.js:160-170 | A message exactly seven days old is fetched but counted in no slot. |
| `AdminController.SlotsCountRecent` | src/controllers/adminController.js:160-171 | The seven slots together count exactly the messages younger than seven days. |
| `AdminController.GetDashboardStats` | src/controllers/adminController.js:147-185 | The totals are the collection sizes and the number of groups, and the histogram's sum is at most the message total. |

## Left out

- **Empty member lists.** A description of this system says an empty member list emits nothing. The code relies on socket.io, where `to([])` adds no room and so reaches every connected socket. The model follows the code (`Realtime.Recipients`, `Realtime.EmptyListBroadcasts`).
- **`src/utils/errorHandler.js` is not part of this model.** Its constructor is read as `(status, message)`. Calling it without `new` is taken to throw a TypeError.
- **`src/utils/cloudinary.js` is not part of this model.** Uploads are a `Result` parameter. The deletion's success is the `cloudOk` flag. Its handling of the string ids `deleteChat` hands it (it reads `.public_id` from each) is not modelled.
- **Framework plumbing.** Route wiring, multer, CORS, server start-up and the database connection are not modelled.
- **Other handlers.** `renameGroup`, `accessChat`, `getProfile`, `getMyProfile`, `getNotifications` and `getAdminData` are single lookups or constant answers with no rule beyond not-found. They are not modelled.
- **Ordering and concurrency.**
  - Listings are in store order. The `updatedAt` sort of `fetchChats` and `getMygroups` is not modelled.
  - Concurrent sockets are a sequential trace.
  - `Promise.all` is read as all of its work completing.
  - The unawaited `chat.save()` in `leaveGroup` is read as completed.
- **Query-string values** that are not numbers (NaN page sizes) are not modelled. `page` and `resultPerPage` are integers or absent.
- **Schema rules** (required, trim, unique indexes), password hashing, token formats and the base64 encoding itself are not modelled.
- `UserController.AcceptRequest`: the rejection path calls `deleteOne()` without awaiting it and then `save()`. In recent Mongoose a query runs only when awaited or executed, so this deletion may never happen. The Mongoose version is not known here, and the model reads it as the deletion that is evidently intended.
- `UserController.RegisterUser`: the never-taken branch for a `User.create` that returns nothing is not modelled.
- `ChatController.PlanAddToGroup`: `uniqueMembers < 1` compares an array with a number. It is modelled as "no new ids". A single new id whose text reads as a number below 1 is not modelled.
- `ChatController.AddToGroup`: the alert goes to every member id. The handler populates first, so it alerts only members whose user record still exists.
- `ChatController.LeaveGroup`: the requester's record is taken as given. The handler re-reads it and fails if it has been deleted.
- `ChatController.GetMessages`: the `sort({ createdAt: -1 })` is read as the reverse of store order, on the reading that each chat's messages are stored in creation order. The model does not maintain that order, since `createdAt` is a free field and `SendAttachment` takes any `now`. Ties and out-of-order timestamps are not modelled.
- `ChatController.SendAttachment`: the number of files is a parameter. A request with no files field at all, which the handler cannot read, is not modelled.
- `AdminController.DailyHistogram`: the lower bound is `today - 7 * Day` in milliseconds. The handler computes it with `setDate`, which differs by the daylight-saving shift across a change of clocks.

## Findings

| source | as written | input that shows it | evidently intended | confidence | as-written member | corrected member |
|---|---|---|---|---|---|---|
| src/middlewares/authMiddleware.js:60 | The admin token's key is compared with the raw `process.env.ADMIN_SECRET_KEY`. The admin login uses the same variable with a built-in fallback (src/index.js:32-34). | ADMIN_SECRET_KEY unset: logging in with the fallback key succeeds, but its cookie gets 401 "Wrong input". A user's "Chat" session token sent as admin-token (no secretKey, undefined === undefined) passes. | Compare with the same key the login uses. | not executed | `AdminController.AdminLoginLockedOutWithoutEnvKey` | `AdminController.AdminLoginRoundTrip` |
| src/controllers/adminController.js:88 | `Message.countDocuments({ chat: _id })`, but messages store their chat under `chatId`. | Chat "a" with one message and chat "b" with one: `totalMessages` for "a" is 2 with strictQuery on, 0 with it off. | `Message.countDocuments({ chatId: _id })` | not executed; depends on Mongoose's strictQuery setting, wrong under both | `AdminController.TotalMessagesAsWrittenIsWrong` | `AdminController.TotalsCoverMessages` |
| src/controllers/userController.js:21 | `return ErrorHandler(new ErrorHandler(400, "User Already Exist."))` calls the error class without `new`. | Registering a username that already exists: a TypeError is thrown and answered with 500. | `return next(new ErrorHandler(400, "User Already Exist."))` | not executed; assumes ErrorHandler is declared as a class | `UserController.DuplicateRegistrationIs500` | `UserController.PlanRegister` |

=== FILE: admin.dfy ===
/**
 * The admin handlers of src/controllers/adminController.js: the admin key
 * login, the user, chat and message listings, and the dashboard totals with
 * the seven-slot daily message histogram. Token signing is a parameter and
 * the clock is the `today` timestamp in milliseconds.
 */
module AdminController {
  import opened Base
  import opened Store
  import Auth

  const InvalidAdminKey := HttpError(401, "Invalid Admin Key")
  const Day15 := 1000 * 60 * 60 * 24 * 15

  // ---------------------------------------------------------------------
  // verifyAdmin and logoutAdmin
  // ---------------------------------------------------------------------

  /**
   * `verifyAdmin`: the submitted key must be present and equal the admin
   * key; the admin-token cookie then carries the signed key for 15 days.
   */
  function VerifyAdmin(secretKey: Option<string>, adminKey: string, sign: string -> string): (r: Result<Cookie>)
    ensures r.Success? <==> Truthy(secretKey) && secretKey.value == adminKey
    ensures r.Failure? ==> r.error == InvalidAdminKey
    ensures r.Success? ==> r.value == Cookie(Auth.AdminCookie, sign(adminKey), 1296000000)
  {
    if !Truthy(secretKey) || secretKey.value != adminKey then Failure(InvalidAdminKey)
    else Success(Cookie(Auth.AdminCookie, sign(secretKey.value), Day15))
  }

  /** `logoutAdmin`: the admin-token cookie cleared. */
  function AdminLogoutCookie(): (c: Cookie)
    ensures c.name == Auth.AdminCookie && c.value == "" && c.maxAge == 0
  {
    Cookie(Auth.AdminCookie, "", 0)
  }

  /**
   * With the admin middleware comparing against the same key as the login,
   * the cookie the login sets opens the admin routes, whatever the
   * environment holds.
   */
  lemma AdminLoginRoundTrip(env: Option<string>, verify: string -> Result<Auth.Claims>, sign: string -> string)
    requires sign(Auth.AdminSecretKey(env)) != ""
    requires verify(sign(Auth.AdminSecretKey(env))) == Success(Auth.Claims(None, Some(Auth.AdminSecretKey(env))))
    ensures var key := Auth.AdminSecretKey(env);
            var login := VerifyAdmin(Some(key), key, sign);
            login.Success? && Auth.GetAdminAuthCookies(map[login.value.name := login.value.value], verify, key).None?
  {
    var key := Auth.AdminSecretKey(env);
    var login := VerifyAdmin(Some(key), key, sign);
    assert Auth.CookieValue(map[login.value.name := login.value.value], Auth.AdminCookie) == Some(sign(key));
  }

  /**
   * As written, with ADMIN_SECRET_KEY unset, logging in with the fallback
   * key succeeds and the cookie it sets is then refused on every admin
   * route.
   */
  lemma AdminLoginLockedOutWithoutEnvKey(verify: string -> Result<Auth.Claims>, sign: string -> string)
    requires sign(Auth.DefaultAdminKey) != ""
    requires verify(sign(Auth.DefaultAdminKey)) == Success(Auth.Claims(None, Some(Auth.DefaultAdminKey)))
    ensures var login := VerifyAdmin(Some(Auth.DefaultAdminKey), Auth.AdminSecretKey(None), sign);
            login.Success? &&
            Auth.GetAdminAuthCookiesAsWritten(map[login.value.name := login.value.value], verify, None) == Some(Auth.WrongAdminKey)
  {
    var login := VerifyAdmin(Some(Auth.DefaultAdminKey), Auth.AdminSecretKey(None), sign);
    assert Auth.CookieValue(map[login.value.name := login.value.value], Auth.AdminCookie) == Some(sign(Auth.DefaultAdminKey));
  }

  // ---------------------------------------------------------------------
  // allUsers
  // ---------------------------------------------------------------------

  /** Number of group chats listing `u` (`countDocuments({ groupChat: true, members: u })`). */
  function GroupCount(chats: seq<Chat>, u: UserId): nat {
    Count(chats, (c: Chat) => c.groupChat && u in c.members)
  }

  /** Number of one-to-one chats listing `u`. */
  function FriendCount(chats: seq<Chat>, u: UserId): nat {
    Count(chats, (c: Chat) => !c.groupChat && u in c.members)
  }

  /** Number of chats of any kind listing `u`. */
  function ChatCount(chats: seq<Chat>, u: UserId): nat {
    Count(chats, (c: Chat) => u in c.members)
  }

  datatype UserRow = UserRow(id: UserId, name: string, username: string, avatar: Attachment, groups: nat, friends: nat)

  /** `allUsers`: one row per stored user, in store order, with its group and friend counts. */
  function AllUsers(users: seq<User>, chats: seq<Chat>): (r: seq<UserRow>)
    ensures |r| == |users|
    ensures forall i :: 0 <= i < |users| ==>
              r[i] == UserRow(users[i].id, users[i].name, users[i].username, users[i].avatar,
                              GroupCount(chats, users[i].id), FriendCount(chats, users[i].id))
  {
    seq(|users|, i requires 0 <= i < |users| =>
      var u := users[i];
      UserRow(u.id, u.name, u.username, u.avatar, GroupCount(chats, u.id), FriendCount(chats, u.id)))
  }

  /** Every chat listing a user is either a group or a friendship, never both. */
  lemma {:induction false} GroupsAndFriends(chats: seq<Chat>, u: UserId)
    ensures GroupCount(chats, u) + FriendCount(chats, u) == ChatCount(chats, u)
    ensures ChatCount(chats, u) <= |chats|
  {
    if chats != [] {
      GroupsAndFriends(chats[..|chats| - 1], u);
    }
  }

  // ---------------------------------------------------------------------
  // allChats
  // ---------------------------------------------------------------------

  /** Number of messages stored for the chat `id`. */
  function MessagesIn(messages: seq<Message>, id: ChatId): nat {
    Count(messages, (m: Message) => m.chatId == id)
  }

  /**
   * `Message.countDocuments({ chat: id })` as written: messages store their
   * chat under `chatId`, so the filter names a path no message has. With
   * Mongoose's strictQuery on the unknown path is stripped and every
   * message is counted; with it off no message matches.
   */
  function TotalMessagesAsWritten(messages: seq<Message>, id: ChatId, strictQuery: bool): (n: nat)
    ensures strictQuery ==> n == |messages|
    ensures !strictQuery ==> n == 0
  {
    if strictQuery then |messages| else 0
  }

  /** The count as written disagrees with the chat's own messages under either Mongoose setting. */
  lemma TotalMessagesAsWrittenIsWrong(strictQuery: bool)
    ensures var messages := [Message("m1", "a", "u", "hi", [], 0), Message("m2", "b", "u", "yo", [], 0)];
            MessagesIn(messages, "a") == 1 && TotalMessagesAsWritten(messages, "a", strictQuery) != 1
  {
    var messages := [Message("m1", "a", "u", "hi", [], 0), Message("m2", "b", "u", "yo", [], 0)];
    assert messages[..1] == [messages[0]];
    assert MessagesIn(messages[..1], "a") == 1;
  }

  function ChatIds(chats: seq<Chat>): set<ChatId> {
    set c | c in chats :: c.id
  }

  /** Number of messages whose chat is one of `ids`. */
  function MessagesInAny(messages: seq<Message>, ids: set<ChatId>): nat {
    Count(messages, (m: Message) => m.chatId in ids)
  }

  lemma {:induction false} MessagesInAnyAdd(messages: seq<Message>, ids: set<ChatId>, id: ChatId)
    requires id !in ids
    ensures MessagesInAny(messages, ids) + MessagesIn(messages, id) == MessagesInAny(messages, ids + {id})
  {
    if messages != [] {
      MessagesInAnyAdd(messages[..|messages| - 1], ids, id);
    }
  }

  /** Sum of the per-chat message counts. */
  function TotalsSum(chats: seq<Chat>, messages: seq<Message>): nat {
    if chats == [] then 0 else TotalsSum(chats[..|chats| - 1], messages) + MessagesIn(messages, chats[|chats| - 1].id)
  }

  /**
   * With distinct chat ids, the corrected per-chat totals add up to the
   * number of messages that belong to a listed chat: every such message is
   * counted exactly once.
   */
  lemma {:induction false} TotalsCoverMessages(chats: seq<Chat>, messages: seq<Message>)
    requires forall i, j :: 0 <= i < j < |chats| ==> chats[i].id != chats[j].id
    ensures TotalsSum(chats, messages) == MessagesInAny(messages, ChatIds(chats))
  {
    if chats == [] {
      assert ChatIds(chats) == {};
      assert MessagesInAny(messages, {}) == 0;
    } else {
      var front, last := chats[..|chats| - 1], chats[|chats| - 1];
      TotalsCoverMessages(front, messages);
      assert ChatIds(chats) == ChatIds(front) + {last.id} by {
        assert chats == front + [last];
      }
      assert last.id !in ChatIds(front);
      MessagesInAnyAdd(messages, ChatIds(front), last.id);
    }
  }

  datatype MemberView = MemberView(id: UserId, name: string, avatar: string)
  datatype CreatorView = CreatorView(name: string, avatar: string)
  datatype ChatRow = ChatRow(id: ChatId, name: string, groupChat: bool, avatar: seq<string>, members: seq<MemberView>,
                             creator: CreatorView, totalMembers: nat, totalMessages: nat)

  function MemberViews(us: seq<User>): (r: seq<MemberView>)
    ensures |r| == |us| && forall i :: 0 <= i < |us| ==> r[i] == MemberView(us[i].id, us[i].name, us[i].avatar.url)
  {
    seq(|us|, i requires 0 <= i < |us| => MemberView(us[i].id, us[i].name, us[i].avatar.url))
  }

  /** `creator?.name || "None"` and `creator?.avatar?.url || ""`. */
  function CreatorOf(users: seq<User>, creator: Option<UserId>): (v: CreatorView)
    ensures v.name != ""
    ensures (creator.None? || FindUser(users, creator.value).None?) ==> v == CreatorView("None", "")
    ensures creator.Some? && FindUser(users, creator.value).Some? ==>
              var u := FindUser(users, creator.value).value;
              v.name == (if u.name == "" then "None" else u.name) && v.avatar == u.avatar.url
  {
    var found := if creator.Some? then FindUser(users, creator.value) else None;
    match found
    case None => CreatorView("None", "")
    case Some(u) => CreatorView(if u.name == "" then "None" else u.name, u.avatar.url)
  }

  /**
   * One `allChats` row, with the message total counted by chat id: the
   * avatar is the first three populated members' urls, the members are
   * the populated members, and the creator falls back to "None".
   */
  function ChatRowOf(c: Chat, users: seq<User>, messages: seq<Message>): (row: ChatRow)
    ensures row.id == c.id && row.name == c.name && row.groupChat == c.groupChat
    ensures row.avatar == FirstThree(AvatarUrls(Populate(users, c.members))) && |row.avatar| <= 3
    ensures row.members == MemberViews(Populate(users, c.members))
    ensures row.totalMembers == |row.members| <= |c.members|
    ensures (forall i :: 0 <= i < |c.members| ==> FindUser(users, c.members[i]).Some?) ==>
              row.totalMembers == |c.members| &&
              forall i :: 0 <= i < |c.members| ==> row.members[i].id == c.members[i]
    ensures row.creator == CreatorOf(users, c.creator)
    ensures row.totalMessages == MessagesIn(messages, c.id)
  {
    var members := Populate(users, c.members);
    var row := ChatRow(c.id, c.name, c.groupChat, FirstThree(AvatarUrls(members)), MemberViews(members),
                       CreatorOf(users, c.creator), |members|, MessagesIn(messages, c.id));
    if forall i :: 0 <= i < |c.members| ==> FindUser(users, c.members[i]).Some? then
      PopulateAllFound(users, c.members);
      row
    else
      row
  }

  /** `allChats`: one row per stored chat, in store order. */
  function AllChats(chats: seq<Chat>, users: seq<User>, messages: seq<Message>): (r: seq<ChatRow>)
    ensures |r| == |chats| && forall i :: 0 <= i < |chats| ==> r[i] == ChatRowOf(chats[i], users, messages)
  {
    seq(|chats|, i requires 0 <= i < |chats| => ChatRowOf(chats[i], users, messages))
  }

  // ---------------------------------------------------------------------
  // allMessages
  // ---------------------------------------------------------------------

  datatype SenderView = SenderView(id: UserId, name: string, avatar: string)
  datatype MessageRow = MessageRow(id: string, content: string, attachments: seq<Attachment>, chat: ChatId,
                                   groupChat: bool, sender: SenderView, createdAt: int)

  /** One `allMessages` row; a message whose chat or sender is gone cannot be read. */
  function MessageRowOf(m: Message, users: seq<User>, chats: seq<Chat>): (r: Result<MessageRow>)
    ensures r.Success? <==> FindChat(chats, m.chatId).Some? && FindUser(users, m.sender).Some?
    ensures r.Failure? ==> r.error == NullAccess
    ensures r.Success? ==>
              r.value.id == m.id && r.value.content == m.content && r.value.attachments == m.attachments &&
              r.value.chat == m.chatId && r.value.createdAt == m.createdAt &&
              r.value.groupChat == chats[FindChat(chats, m.chatId).value].groupChat &&
              var u := FindUser(users, m.sender).value;
              r.value.sender == SenderView(u.id, u.name, u.avatar.url) && u.id == m.sender
  {
    match FindChat(chats, m.chatId)
    case None => Failure(NullAccess)
    case Some(k) =>
      match FindUser(users, m.sender)
      case None => Failure(NullAccess)
      case Some(u) =>
        Success(MessageRow(m.id, m.content, m.attachments, m.chatId, chats[k].groupChat,
                           SenderView(u.id, u.name, u.avatar.url), m.createdAt))
  }

  /** `transformedMessages.reverse()`. */
  method ReverseInPlace<T>(a: array<T>)
    modifies a
    ensures a[..] == Reverse(old(a[..]))
  {
    var n, i := a.Length, 0;
    while i < n / 2
      invariant 0 <= i <= n / 2
      invariant forall k :: 0 <= k < i ==> a[k] == old(a[n - 1 - k]) && a[n - 1 - k] == old(a[k])
      invariant forall k :: i <= k < n - i ==> a[k] == old(a[k])
    {
      a[i], a[n - 1 - i] := a[n - 1 - i], a[i];
      i := i + 1;
    }
  }

  /** Copies `xs` into a fresh array and reverses it there, as `allMessages` does. */
  method Reversed<T(0)>(xs: seq<T>) returns (ys: seq<T>)
    ensures ys == Reverse(xs)
  {
    var a := new T[|xs|](i requires 0 <= i < |xs| => xs[i]);
    assert a[..] == xs;
    ReverseInPlace(a);
    ys := a[..];
  }

  /** The rows of all messages in store order, or the error of the first unreadable one. */
  function MessageRows(messages: seq<Message>, users: seq<User>, chats: seq<Chat>): (r: Result<seq<MessageRow>>)
    ensures r.Success? <==> forall i :: 0 <= i < |messages| ==> MessageRowOf(messages[i], users, chats).Success?
    ensures r.Failure? ==> r.error == NullAccess
    ensures r.Success? ==>
              |r.value| == |messages| &&
              forall i :: 0 <= i < |messages| ==> r.value[i] == MessageRowOf(messages[i], users, chats).value
  {
    MapAll(messages, (m: Message) => MessageRowOf(m, users, chats))
  }

  /**
   * `allMessages`: every stored message projected, newest stored last
   * becoming first; one unreadable message fails the whole listing.
   */
  method AllMessages(messages: seq<Message>, users: seq<User>, chats: seq<Chat>) returns (r: Result<seq<MessageRow>>)
    ensures r.Success? <==> forall i :: 0 <= i < |messages| ==> MessageRowOf(messages[i], users, chats).Success?
    ensures r.Failure? ==> r.error == NullAccess
    ensures r.Success? ==>
              |r.value| == |messages| &&
              forall k :: 0 <= k < |messages| ==>
                r.value[k] == MessageRowOf(messages[|messages| - 1 - k], users, chats).value
  {
    var all := MessageRows(messages, users, chats);
    if all.Failure? {
      r := Failure(all.error);
    } else {
      var rows := all.value;
      var newestFirst := Reversed(rows);
      forall k | 0 <= k < |messages|
        ensures newestFirst[k] == MessageRowOf(messages[|messages| - 1 - k], users, chats).value
      {
        var j := |messages| - 1 - k;
        assert newestFirst[k] == rows[j];
        assert rows[j] == MessageRowOf(messages[j], users, chats).value;
      }
      r := Success(newestFirst);
    }
  }

  // ---------------------------------------------------------------------
  // getDashboardStats
  // ---------------------------------------------------------------------

  /** The histogram's query: created at most seven days before `today` and not after it. */
  predicate Selected(m: Message, today: int) {
    today - 7 * Day <= m.createdAt <= today
  }

  /**
   * The slot a selected message increments: six minus its age in whole
   * days. A message exactly seven days old gets slot -1, which is no
   * element of the seven-slot array.
   */
  function Slot(m: Message, today: int): int
    requires Selected(m, today)
  {
    6 - (today - m.createdAt) / Day
  }

  /** Number of selected messages that land in slot `k`. */
  function SlotCount(messages: seq<Message>, today: int, k: int): nat {
    Count(messages, (m: Message) => Selected(m, today) && Slot(m, today) == k)
  }

  /** Number of messages younger than seven days and not in the future. */
  function RecentCount(messages: seq<Message>, today: int): nat {
    Count(messages, (m: Message) => today - 7 * Day < m.createdAt <= today)
  }

  /** A selected message lands in a slot between -1 and 6; -1 only at exactly seven days. */
  lemma SlotRange(m: Message, today: int)
    requires Selected(m, today)
    ensures -1 <= Slot(m, today) <= 6
    ensures Slot(m, today) == -1 <==> m.createdAt == today - 7 * Day
    ensures today - m.createdAt < Day ==> Slot(m, today) == 6
  {
  }

  /**
   * `getDashboardStats`' histogram: seven slots starting at zero, one
   * increment per selected message, slot 6 for the last day; an increment
   * of slot -1 sets no element.
   */
  method DailyHistogram(messages: seq<Message>, today: int) returns (slots: seq<nat>)
    ensures |slots| == 7
    ensures forall k :: 0 <= k < 7 ==> slots[k] == SlotCount(messages, today, k)
  {
    var counts := new nat[7](_ => 0);
    var i := 0;
    while i < |messages|
      invariant 0 <= i <= |messages|
      invariant forall k :: 0 <= k < 7 ==> counts[k] == SlotCount(messages[..i], today, k)
    {
      var m := messages[i];
      assert messages[..i + 1] == messages[..i] + [m];
      assert messages[..i + 1][..i] == messages[..i];
      if Selected(m, today) {
        var index := Slot(m, today);
        if 0 <= index < 7 {
          counts[index] := counts[index] + 1;
        }
      }
      i := i + 1;
    }
    assert messages[..i] == messages;
    slots := counts[..];
  }

  /** A message exactly seven days old is fetched by the query but counted in no slot. */
  lemma SeventhDayDropped(messages: seq<Message>, m: Message, today: int, k: int)
    requires m.createdAt == today - 7 * Day
    requires 0 <= k < 7
    ensures Selected(m, today)
    ensures SlotCount(messages + [m], today, k) == SlotCount(messages, today, k)
  {
    assert (messages + [m])[..|messages|] == messages;
  }

  function SlotSum(messages: seq<Message>, today: int): nat {
    SlotCount(messages, today, 0) + SlotCount(messages, today, 1) + SlotCount(messages, today, 2) +
    SlotCount(messages, today, 3) + SlotCount(messages, today, 4) + SlotCount(messages, today, 5) +
    SlotCount(messages, today, 6)
  }

  /** The seven slots together count exactly the messages younger than seven days. */
  lemma {:induction false} SlotsCountRecent(messages: seq<Message>, today: int)
    ensures SlotSum(messages, today) == RecentCount(messages, today)
  {
    if messages != [] {
      var m := messages[|messages| - 1];
      SlotsCountRecent(messages[..|messages| - 1], today);
      if Selected(m, today) {
        SlotRange(m, today);
      }
    }
  }

  datatype Stats = Stats(totalChats: nat, totalGroups: nat, totalUsers: nat, totalMessages: nat, messages: seq<nat>)

  function GroupTotal(chats: seq<Chat>): nat {
    Count(chats, (c: Chat) => c.groupChat)
  }

  /** `getDashboardStats`: the collection totals and the daily histogram. */
  method GetDashboardStats(users: seq<User>, chats: seq<Chat>, messages: seq<Message>, today: int) returns (s: Stats)
    ensures s.totalUsers == |users| && s.totalChats == |chats| && s.totalMessages == |messages|
    ensures s.totalGroups == GroupTotal(chats) <= |chats|
    ensures |s.messages| == 7 && forall k :: 0 <= k < 7 ==> s.messages[k] == SlotCount(messages, today, k)
    ensures s.messages[0] + s.messages[1] + s.messages[2] + s.messages[3] + s.messages[4] + s.messages[5] +
            s.messages[6] == RecentCount(messages, today) <= s.totalMessages
  {
    var histogram := DailyHistogram(messages, today);
    SlotsCountRecent(messages, today);
    s := Stats(|chats|, GroupTotal(chats), |users|, |messages|, histogram);
  }
}

=== FILE: auth.dfy ===
/**
 * The authentication middlewares of src/middlewares/authMiddleware.js as
 * decision functions. Token verification (`jwt.verify`) and the user lookup
 * (`User.findById`) are parameters: each either returns a value or throws an
 * error, written as `Failure(error)`.
 */
module Auth {
  import opened Base

  /** The claims of a signed token: a session token carries a user id, an admin token a secret key. */
  datatype Claims = Claims(id: Option<UserId>, secretKey: Option<string>)

  /**
   * What a middleware hands on: the error it passes to `next` (None when it
   * calls `next()` with no error) and the user it stores on the request or
   * socket (None when it stores nothing or stores null).
   */
  datatype AuthOutcome = AuthOutcome(error: Option<ApiError>, user: Option<User>)

  const SessionCookie := "Chat"
  const AdminCookie := "admin-token"

  /** The fallback used when ADMIN_SECRET_KEY is unset or empty. */
  const DefaultAdminKey := "jhiugiusgubfdusbuidsiubdubsiufbausdbbdsbfaib"

  /** `process.env.ADMIN_SECRET_KEY || <fallback>`: the key the admin login compares against. */
  function AdminSecretKey(env: Option<string>): (k: string)
    ensures Truthy(env) ==> k == env.value
    ensures !Truthy(env) ==> k == DefaultAdminKey
    ensures k != ""
  {
    if Truthy(env) then env.value else DefaultAdminKey
  }

  function CookieValue(cookies: map<string, string>, name: string): Option<string> {
    if name in cookies then Some(cookies[name]) else None
  }

  /** `jwt.verify(token)`: a missing or empty token is refused before any signature check. */
  function Verify(verify: string -> Result<Claims>, token: Option<string>): (r: Result<Claims>)
    ensures !Truthy(token) ==> r.Failure?
    ensures Truthy(token) ==> r == verify(token.value)
  {
    if Truthy(token) then verify(token.value)
    else Failure(ApiError("JsonWebTokenError", NoStatus, "jwt must be provided", ""))
  }

  const LoginRequired := HttpError(401, "Please login to access this route")

  /**
   * `socketAuthenticator`: an incoming error is passed on unchanged; otherwise
   * the "Chat" cookie must verify and name an existing user, and every other
   * outcome, thrown errors included, becomes the same 401.
   */
  function SocketAuthenticator(err: Option<ApiError>, cookies: map<string, string>,
                               verify: string -> Result<Claims>,
                               findUser: Option<UserId> -> Result<Option<User>>): (r: AuthOutcome)
    ensures err.Some? ==> r == AuthOutcome(err, None)
    ensures err.None? && !Truthy(CookieValue(cookies, SessionCookie)) ==> r == AuthOutcome(Some(LoginRequired), None)
    ensures r.error.None? <==> r.user.Some?
    ensures err.None? && r.error.Some? ==> r.error == Some(LoginRequired)
    ensures r.user.Some? <==>
              err.None? &&
              Truthy(CookieValue(cookies, SessionCookie)) &&
              verify(CookieValue(cookies, SessionCookie).value).Success? &&
              findUser(verify(CookieValue(cookies, SessionCookie).value).value.id).Success? &&
              findUser(verify(CookieValue(cookies, SessionCookie).value).value.id).value.Some?
    ensures r.user.Some? ==>
              r.user == findUser(verify(CookieValue(cookies, SessionCookie).value).value.id).value
  {
    if err.Some? then AuthOutcome(err, None)
    else
      var token := CookieValue(cookies, SessionCookie);
      if !Truthy(token) then AuthOutcome(Some(LoginRequired), None)
      else
        match verify(token.value)
        case Failure(_) => AuthOutcome(Some(LoginRequired), None)
        case Success(claims) =>
          match findUser(claims.id)
          case Failure(_) => AuthOutcome(Some(LoginRequired), None)
          case Success(None) => AuthOutcome(Some(LoginRequired), None)
          case Success(Some(u)) => AuthOutcome(None, Some(u))
  }

  predicate StartsWith(s: string, prefix: string) {
    |prefix| <= |s| && s[..|prefix|] == prefix
  }

  /** The text up to the first space, or all of it. */
  function UpToSpace(s: string): (r: string)
    ensures r <= s && ' ' !in r
    ensures |r| < |s| ==> s[|r|] == ' '
  {
    match IndexWhere(s, c => c == ' ')
    case None => s
    case Some(k) => s[..k]
  }

  /** `header.split(" ")[1]`: the piece after the first space, undefined when there is none. */
  function SecondPiece(header: string): (r: Option<string>)
    ensures r.None? <==> ' ' !in header
    ensures r.Some? ==> ' ' !in r.value
  {
    match IndexWhere(header, c => c == ' ')
    case None => None
    case Some(k) => Some(UpToSpace(header[k + 1..]))
  }

  /** A header "Bearer <t> ..." yields `t` when `t` holds no space. */
  lemma {:induction false} BearerTokenRoundTrip(t: string, rest: string)
    requires ' ' !in t
    ensures SecondPiece("Bearer " + t + rest) == Some(UpToSpace(t + rest))
    ensures rest == [] || rest[0] == ' ' ==> SecondPiece("Bearer " + t + rest) == Some(t)
  {
    var h := "Bearer " + t + rest;
    assert h[6] == ' ';
    assert forall j :: 0 <= j < 6 ==> h[j] != ' ';
    assert IndexWhere(h, c => c == ' ') == Some(6);
    assert h[7..] == t + rest;
    if rest == [] || rest[0] == ' ' {
      var u := t + rest;
      assert forall j :: 0 <= j < |t| ==> u[j] != ' ';
      if rest == [] {
        assert u == t;
      } else {
        assert u[|t|] == ' ';
        assert IndexWhere(u, c => c == ' ') == Some(|t|);
        assert u[..|t|] == t;
      }
    }
  }

  const TokenFailed := HttpError(401, "Not authorized, token failed")

  /**
   * `getAuthHeaders`: only a header starting with "Bearer" is read; its
   * second space-separated piece is verified and looked up, any failure
   * there becoming 401 "token failed"; without such a header, 401 "please
   * login". A successful lookup may store null: that is not refused.
   */
  function GetAuthHeaders(authorization: Option<string>, verify: string -> Result<Claims>,
                          findUser: Option<UserId> -> Result<Option<User>>): (r: AuthOutcome)
    ensures !(Truthy(authorization) && StartsWith(authorization.value, "Bearer")) ==>
              r == AuthOutcome(Some(LoginRequired), None)
    ensures r.error.None? <==>
              Truthy(authorization) && StartsWith(authorization.value, "Bearer") &&
              Verify(verify, SecondPiece(authorization.value)).Success? &&
              findUser(Verify(verify, SecondPiece(authorization.value)).value.id).Success?
    ensures r.error.None? ==>
              r.user == findUser(Verify(verify, SecondPiece(authorization.value)).value.id).value
    ensures r.error.Some? ==> r.user.None? && r.error.value.status == Code(401)
  {
    if Truthy(authorization) && StartsWith(authorization.value, "Bearer") then
      match Verify(verify, SecondPiece(authorization.value))
      case Failure(_) => AuthOutcome(Some(TokenFailed), None)
      case Success(claims) =>
        match findUser(claims.id)
        case Failure(_) => AuthOutcome(Some(TokenFailed), None)
        case Success(u) => AuthOutcome(None, u)
    else AuthOutcome(Some(LoginRequired), None)
  }

  /**
   * `getAuthCookies`: a missing "Chat" cookie is 401; an error thrown by
   * verification or lookup is passed on as it is (it has no 401 status); a
   * lookup that finds no user is not refused.
   */
  function GetAuthCookies(cookies: map<string, string>, verify: string -> Result<Claims>,
                          findUser: Option<UserId> -> Result<Option<User>>): (r: AuthOutcome)
    ensures !Truthy(CookieValue(cookies, SessionCookie)) ==>
              r == AuthOutcome(Some(HttpError(401, "Not authorized")), None)
    ensures Truthy(CookieValue(cookies, SessionCookie)) && verify(CookieValue(cookies, SessionCookie).value).Failure? ==>
              r == AuthOutcome(Some(verify(CookieValue(cookies, SessionCookie).value).error), None)
    ensures r.error.None? <==>
              Truthy(CookieValue(cookies, SessionCookie)) &&
              verify(CookieValue(cookies, SessionCookie).value).Success? &&
              findUser(verify(CookieValue(cookies, SessionCookie).value).value.id).Success?
    ensures Truthy(CookieValue(cookies, SessionCookie)) &&
            verify(CookieValue(cookies, SessionCookie).value).Success? &&
            findUser(verify(CookieValue(cookies, SessionCookie).value).value.id) == Success(None) ==>
              r == AuthOutcome(None, None)
    ensures Truthy(CookieValue(cookies, SessionCookie)) &&
            verify(CookieValue(cookies, SessionCookie).value).Success? &&
            findUser(verify(CookieValue(cookies, SessionCookie).value).value.id).Success? ==>
              r == AuthOutcome(None, findUser(verify(CookieValue(cookies, SessionCookie).value).value.id).value)
    ensures Truthy(CookieValue(cookies, SessionCookie)) &&
            verify(CookieValue(cookies, SessionCookie).value).Success? &&
            findUser(verify(CookieValue(cookies, SessionCookie).value).value.id).Failure? ==>
              r == AuthOutcome(Some(findUser(verify(CookieValue(cookies, SessionCookie).value).value.id).error), None)
  {
    var token := CookieValue(cookies, SessionCookie);
    if !Truthy(token) then AuthOutcome(Some(HttpError(401, "Not authorized")), None)
    else
      match verify(token.value)
      case Failure(e) => AuthOutcome(Some(e), None)
      case Success(claims) =>
        match findUser(claims.id)
        case Failure(e) => AuthOutcome(Some(e), None)
        case Success(u) => AuthOutcome(None, u)
  }

  const MissingAdminKey := HttpError(401, "Please Provide key")
  const WrongAdminKey := HttpError(401, "Wrong input")

  /**
   * `getAdminAuthCookies` AS WRITTEN: the decoded secret key is compared with
   * the raw environment variable, so an unset variable (undefined) is
   * matched by any token that carries no secret key at all.
   */
  function GetAdminAuthCookiesAsWritten(cookies: map<string, string>, verify: string -> Result<Claims>,
                                        envKey: Option<string>): (r: Option<ApiError>)
    ensures !Truthy(CookieValue(cookies, AdminCookie)) ==> r == Some(MissingAdminKey)
    ensures r.None? <==>
              Truthy(CookieValue(cookies, AdminCookie)) &&
              verify(CookieValue(cookies, AdminCookie).value).Success? &&
              verify(CookieValue(cookies, AdminCookie).value).value.secretKey == envKey
    ensures Truthy(CookieValue(cookies, AdminCookie)) && verify(CookieValue(cookies, AdminCookie).value).Failure? ==>
              r == Some(verify(CookieValue(cookies, AdminCookie).value).error)
    ensures (Truthy(CookieValue(cookies, AdminCookie)) &&
             verify(CookieValue(cookies, AdminCookie).value).Success? &&
             verify(CookieValue(cookies, AdminCookie).value).value.secretKey != envKey) ==> r == Some(WrongAdminKey)
  {
    var token := CookieValue(cookies, AdminCookie);
    if !Truthy(token) then Some(MissingAdminKey)
    else
      match verify(token.value)
      case Failure(e) => Some(e)
      case Success(claims) => if claims.secretKey != envKey then Some(WrongAdminKey) else None
  }

  /** With ADMIN_SECRET_KEY unset, the token the admin login issues for the fallback key is refused. */
  lemma AdminTokenRefusedWithoutEnvKey(verify: string -> Result<Claims>, token: string)
    requires token != ""
    requires verify(token) == Success(Claims(None, Some(DefaultAdminKey)))
    ensures GetAdminAuthCookiesAsWritten(map[AdminCookie := token], verify, None) == Some(WrongAdminKey)
  {
    assert CookieValue(map[AdminCookie := token], AdminCookie) == Some(token);
  }

  /** With ADMIN_SECRET_KEY unset, a user's session token (no secret key claim) passes the admin check. */
  lemma SessionTokenPassesAdminCheckWithoutEnvKey(verify: string -> Result<Claims>, token: string, uid: UserId)
    requires token != ""
    requires verify(token) == Success(Claims(Some(uid), None))
    ensures GetAdminAuthCookiesAsWritten(map[AdminCookie := token], verify, None) == None
  {
    assert CookieValue(map[AdminCookie := token], AdminCookie) == Some(token);
  }

  /**
   * `getAdminAuthCookies` as intended: the decoded secret key is compared
   * with the same key the admin login uses, `AdminSecretKey(env)`.
   */
  function GetAdminAuthCookies(cookies: map<string, string>, verify: string -> Result<Claims>,
                               adminKey: string): (r: Option<ApiError>)
    ensures !Truthy(CookieValue(cookies, AdminCookie)) ==> r == Some(MissingAdminKey)
    ensures r.None? <==>
              Truthy(CookieValue(cookies, AdminCookie)) &&
              verify(CookieValue(cookies, AdminCookie).value).Success? &&
              verify(CookieValue(cookies, AdminCookie).value).value.secretKey == Some(adminKey)
    ensures (Truthy(CookieValue(cookies, AdminCookie)) &&
             verify(CookieValue(cookies, AdminCookie).value).Success? &&
             verify(CookieValue(cookies, AdminCookie).value).value.secretKey.None?) ==> r == Some(WrongAdminKey)
    ensures Truthy(CookieValue(cookies, AdminCookie)) && verify(CookieValue(cookies, AdminCookie).value).Failure? ==>
              r == Some(verify(CookieValue(cookies, AdminCookie).value).error)
    ensures (Truthy(CookieValue(cookies, AdminCookie)) &&
             verify(CookieValue(cookies, AdminCookie).value).Success? &&
             verify(CookieValue(cookies, AdminCookie).value).value.secretKey != Some(adminKey)) ==> r == Some(WrongAdminKey)
  {
    var token := CookieValue(cookies, AdminCookie);
    if !Truthy(token) then Some(MissingAdminKey)
    else
      match verify(token.value)
      case Failure(e) => Some(e)
      case Success(claims) => if claims.secretKey != Some(adminKey) then Some(WrongAdminKey) else None
  }
}

=== FILE: base.dfy ===
/**
 * Vocabulary shared by the whole model: identifiers, the stored records,
 * the error objects the handlers raise, the realtime payloads and event
 * names, and a few sequence operations the handlers use.
 */
module Base {

  type UserId = string
  type ChatId = string
  type SocketId = string

  datatype Option<T> = None | Some(value: T)

  /** A JavaScript string value that may be missing; "" and a missing value are both falsy. */
  predicate Truthy(s: Option<string>) {
    s.Some? && s.value != ""
  }

  // ---------------------------------------------------------------------
  // Errors
  // ---------------------------------------------------------------------

  /**
   * The `status` property of an error object. Most errors are built as
   * `new ErrorHandler(code, message)`; a thrown library or runtime error has
   * no status at all; and an ErrorHandler built with a single argument holds
   * its message text in the status slot.
   */
  datatype Status = NoStatus | Code(code: int) | Label(text: string)

  /** An error object as the error middleware sees it. */
  datatype ApiError = ApiError(name: string, status: Status, message: string, path: string)

  /** `new ErrorHandler(code, message)`. */
  function HttpError(code: int, message: string): ApiError {
    ApiError("Error", Code(code), message, "")
  }

  /** The TypeError raised when a handler reads a property of null or undefined. */
  const NullAccess: ApiError := ApiError("TypeError", NoStatus, "Cannot read properties of null", "")

  datatype Result<T> = Success(value: T) | Failure(error: ApiError)

  // ---------------------------------------------------------------------
  // Stored records
  // ---------------------------------------------------------------------

  datatype Attachment = Attachment(publicId: string, url: string)

  datatype User = User(id: UserId, name: string, username: string, password: string, bio: string, avatar: Attachment)

  /** A chat; one-to-one chats are created without a creator. */
  datatype Chat = Chat(id: ChatId, name: string, groupChat: bool, creator: Option<UserId>, members: seq<UserId>)

  /** A stored message; `createdAt` is a timestamp in milliseconds. */
  datatype Message = Message(id: string, chatId: ChatId, sender: UserId, content: string,
                             attachments: seq<Attachment>, createdAt: int)

  datatype RequestStatus = Pending | Accepted

  datatype FriendRequest = FriendRequest(id: string, sender: UserId, receiver: UserId, status: RequestStatus)

  /** A cookie set on a response; `maxAge` in milliseconds. */
  datatype Cookie = Cookie(name: string, value: string, maxAge: int)

  // ---------------------------------------------------------------------
  // Realtime payloads and event names
  // ---------------------------------------------------------------------

  /** The sender summary attached to a realtime message. */
  datatype Sender = Sender(id: UserId, name: string, avatar: Option<string>)

  /**
   * The realtime view of a message: the socket handler's view carries a
   * fresh transient id and a timestamp; the attachment handler's view is the
   * stored record with its sender expanded.
   */
  datatype LiveMessage =
    | Typed(content: string, id: string, sender: Sender, chat: ChatId, createdAt: string)
    | WithAttachments(sender: Sender, content: string, chatId: ChatId, attachments: seq<Attachment>)

  datatype Payload =
    | Envelope(chatId: ChatId, message: LiveMessage)   // { chatId, message }
    | ChatRef(chatId: ChatId)                          // { chatId }
    | Users(ids: seq<UserId>)                          // an array of user ids
    | Text(text: string)                               // a plain string
    | Marker                                           // no data at all

  /** One call of the REST handlers' event emitter: an event for a list of users. */
  datatype Notice = Notice(event: string, users: seq<UserId>, payload: Payload)

  const ALERT := "ALERT"
  const NEW_REQUEST := "NEW_REQUEST"
  const REFETCH_CHATS := "REFETCH_CHATS"
  const NEW_MESSAGE := "NEW_MESSAGE"
  const NEW_MESSAGE_ALERT := "NEW_MESSAGE_ALERT"
  const START_TYPING := "START_TYPING"
  const STOP_TYPING := "STOP_TYPING"
  const ONLINE_USERS := "ONLINE_USERS"

  /** Milliseconds in a day. */
  const Day: int := 1000 * 60 * 60 * 24

  // ---------------------------------------------------------------------
  // Sequence operations
  // ---------------------------------------------------------------------

  /** The elements of a sequence, as a set. */
  function Elements<T>(xs: seq<T>): set<T> {
    set x | x in xs
  }

  ghost predicate NoDuplicates<T>(xs: seq<T>) {
    forall i, j :: 0 <= i < j < |xs| ==> xs[i] != xs[j]
  }

  /** `xs.filter(y => y !== x)`: every occurrence of `x` removed, the rest in order. */
  function Without<T(==,!new)>(xs: seq<T>, x: T): (r: seq<T>)
    ensures forall y :: y in r <==> y in xs && y != x
    ensures |r| <= |xs|
    ensures x in xs ==> |r| < |xs|
    ensures multiset(r) == multiset(xs)[x := 0]
  {
    if xs == [] then []
    else
      assert xs == [xs[0]] + xs[1..];
      if xs[0] == x then Without(xs[1..], x) else [xs[0]] + Without(xs[1..], x)
  }

  lemma {:induction false} WithoutNoDuplicates<T(!new)>(xs: seq<T>, x: T)
    requires NoDuplicates(xs)
    ensures NoDuplicates(Without(xs, x))
  {
    if xs != [] {
      WithoutNoDuplicates(xs[1..], x);
      if xs[0] != x {
        var r := Without(xs[1..], x);
        assert xs[0] !in r by { assert xs[0] !in xs[1..]; }
        assert Without(xs, x) == [xs[0]] + r;
      }
    }
  }

  /** The first three elements, or all of them when there are fewer (`slice(0, 3)`). */
  function FirstThree<T>(xs: seq<T>): (r: seq<T>)
    ensures |r| == if |xs| < 3 then |xs| else 3
    ensures r <= xs
  {
    if |xs| <= 3 then xs else xs[..3]
  }

  /** Number of elements satisfying `p`. */
  function Count<T>(xs: seq<T>, p: T -> bool): (n: nat)
    ensures n <= |xs|
    ensures n == 0 <==> forall i :: 0 <= i < |xs| ==> !p(xs[i])
  {
    if xs == [] then 0 else Count(xs[..|xs| - 1], p) + (if p(xs[|xs| - 1]) then 1 else 0)
  }

  /** The sequence in reverse order. */
  function Reverse<T>(xs: seq<T>): (r: seq<T>)
    ensures |r| == |xs|
    ensures forall k :: 0 <= k < |xs| ==> r[k] == xs[|xs| - 1 - k]
  {
    if xs == [] then [] else [xs[|xs| - 1]] + Reverse(xs[..|xs| - 1])
  }

  /** The first index whose element satisfies `p` (`findIndex`), if any. */
  function IndexWhere<T>(xs: seq<T>, p: T -> bool): (r: Option<nat>)
    ensures r.Some? ==> r.value < |xs| && p(xs[r.value]) && forall j :: 0 <= j < r.value ==> !p(xs[j])
    ensures r.None? ==> forall j :: 0 <= j < |xs| ==> !p(xs[j])
  {
    if xs == [] then None
    else if p(xs[0]) then Some(0)
    else match IndexWhere(xs[1..], p)
      case None => None
      case Some(k) => Some(k + 1)
  }

  /** `xs.filter(p)`: the elements satisfying `p`, in order. */
  function Filter<T(!new)>(xs: seq<T>, p: T -> bool): (r: seq<T>)
    ensures forall x :: x in r <==> x in xs && p(x)
    ensures |r| <= |xs|
  {
    if xs == [] then []
    else
      assert xs == xs[..|xs| - 1] + [xs[|xs| - 1]];
      Filter(xs[..|xs| - 1], p) + (if p(xs[|xs| - 1]) then [xs[|xs| - 1]] else [])
  }

  /** Filtering keeps every occurrence of a kept value and none of a dropped one. */
  lemma {:induction false} FilterMultiplicity<T(!new)>(xs: seq<T>, p: T -> bool, x: T)
    ensures multiset(Filter(xs, p))[x] == if p(x) then multiset(xs)[x] else 0
  {
    if xs != [] {
      var init, last := xs[..|xs| - 1], xs[|xs| - 1];
      assert xs == init + [last];
      assert multiset(xs) == multiset(init) + multiset{last};
      FilterMultiplicity(init, p, x);
      var tail := if p(last) then [last] else [];
      assert Filter(xs, p) == Filter(init, p) + tail;
      assert multiset(Filter(xs, p)) == multiset(Filter(init, p)) + multiset(tail);
    }
  }

  /** Filtering keeps the order of the input: it distributes over concatenation. */
  lemma {:induction false} FilterAppend<T(!new)>(xs: seq<T>, ys: seq<T>, p: T -> bool)
    ensures Filter(xs + ys, p) == Filter(xs, p) + Filter(ys, p)
  {
    if ys != [] {
      var init, last := ys[..|ys| - 1], ys[|ys| - 1];
      var whole := xs + ys;
      assert whole[..|whole| - 1] == xs + init && whole[|whole| - 1] == last;
      var tail := if p(last) then [last] else [];
      assert Filter(whole, p) == Filter(xs + init, p) + tail;
      assert Filter(ys, p) == Filter(init, p) + tail;
      FilterAppend(xs, init, p);
      var front, middle := Filter(xs, p), Filter(init, p);
      assert Filter(xs + init, p) == front + middle;
      assert (front + middle) + tail == front + (middle + tail);
    } else {
      assert xs + ys == xs;
    }
  }
  /**
   * `xs.map(f)` where `f` may throw: every image in order, or the first
   * failure.
   */
  function MapAll<A, B>(xs: seq<A>, f: A -> Result<B>): (r: Result<seq<B>>)
    ensures r.Success? <==> forall i :: 0 <= i < |xs| ==> f(xs[i]).Success?
    ensures r.Success? ==> |r.value| == |xs| && forall i :: 0 <= i < |xs| ==> r.value[i] == f(xs[i]).value
    ensures r.Failure? ==> exists i :: 0 <= i < |xs| && f(xs[i]) == Failure(r.error)
  {
    if xs == [] then Success([])
    else
      match f(xs[0])
      case Failure(e) => Failure(e)
      case Success(y) =>
        match MapAll(xs[1..], f)
        case Failure(e) => Failure(e)
        case Success(ys) => Success([y] + ys)
  }
}

=== FILE: chats.dfy ===
/**
 * The group and chat handlers of src/controllers/chatController.js. Each
 * handler's decision is a function of what it reads (the chat, the users,
 * the request fields) returning the error it raises or the records it
 * saves; a method applies that decision to the store and returns the
 * notices the handler emits (delivered by `Realtime.Server.Notify`).
 */
module ChatController {
  import opened Base
  import opened Store

  /** `new ErrorHandler("Please Fill all the fields")`: a single argument lands in the status slot. */
  const FillAllFields := ApiError("Error", Label("Please Fill all the fields"), "", "")
  const TooFewMembers := HttpError(400, "More than 2 users are required to form a group chat")
  const NotAdmin := HttpError(403, "You are not admin")
  const NoMembersGiven := HttpError(400, "Please add members")
  const AlreadyMembers := HttpError(400, "Users selected already in the group")
  const LimitReached := HttpError(400, "Group members limit reached")
  const NotInGroup := HttpError(400, "User not in the group")
  const ChatNotFound := HttpError(404, "Chat Not Found")
  const NotInChat := HttpError(404, "You are not in the chat")
  /** The lower-case 404 of `sendAtachment`, `accessChat` and `getMessages`. */
  const ChatMissing := HttpError(404, "Chat not found")
  const NoFileSelected := HttpError(400, "Please select a file")
  const NotAllowed := HttpError(400, "You are not allowed to access this chat")
  /** The error thrown when the file store refuses a deletion. */
  const CloudDeleteFailed := ApiError("Error", NoStatus, "Failed to delete files to Cloudinary", "")
  /** The database's refusal of a negative `skip`. */
  const NegativeSkip := ApiError("MongoServerError", NoStatus, "skip value must be non-negative", "")

  const MaxMembers := 100

  // ---------------------------------------------------------------------
  // createGroupChat
  // ---------------------------------------------------------------------

  datatype NewGroup = NewGroup(chat: Chat, notices: seq<Notice>)

  /**
   * `createGroupChat`: a missing name or member list is refused, then a
   * list of fewer than two; otherwise a group is created whose members are
   * the listed users followed by the requester, who is its creator. Every
   * member is alerted; the listed users are told to refetch their chats.
   */
  function PlanGroupChat(me: UserId, name: Option<string>, members: Option<seq<UserId>>, freshId: ChatId): (r: Result<NewGroup>)
    ensures (!Truthy(name) || members.None?) ==> r == Failure(FillAllFields)
    ensures Truthy(name) && members.Some? && |members.value| < 2 ==> r == Failure(TooFewMembers)
    ensures r.Success? <==> Truthy(name) && members.Some? && |members.value| >= 2
    ensures r.Success? ==>
              var c := r.value.chat;
              c.id == freshId && c.name == name.value && c.groupChat && c.creator == Some(me) &&
              members.value <= c.members && c.members[|c.members| - 1] == me &&
              |c.members| == |members.value| + 1 && CreatorIsMember(c)
    ensures r.Success? ==>
              r.value.notices == [Notice(ALERT, r.value.chat.members, Text("Welcome to " + name.value + " group.")),
                                  Notice(REFETCH_CHATS, members.value, Marker)]
  {
    if !Truthy(name) || members.None? then Failure(FillAllFields)
    else if |members.value| < 2 then Failure(TooFewMembers)
    else
      var all := members.value + [me];
      Success(NewGroup(Chat(freshId, name.value, true, Some(me), all),
                       [Notice(ALERT, all, Text("Welcome to " + name.value + " group.")),
                        Notice(REFETCH_CHATS, members.value, Marker)]))
  }

  /** A chat's creator, when it has one, is one of its members. */
  predicate CreatorIsMember(c: Chat) {
    c.creator.Some? ==> c.creator.value in c.members
  }

  method CreateGroupChat(db: Database, me: UserId, name: Option<string>, members: Option<seq<UserId>>, freshId: ChatId)
    returns (r: Result<seq<Notice>>)
    modifies db
    ensures var plan := PlanGroupChat(me, name, members, freshId);
            (plan.Success? ==> r == Success(plan.value.notices) && db.chats == old(db.chats) + [plan.value.chat]) &&
            (plan.Failure? ==> r == Failure(plan.error) && db.chats == old(db.chats))
    ensures db.users == old(db.users) && db.messages == old(db.messages) && db.requests == old(db.requests)
  {
    var plan := PlanGroupChat(me, name, members, freshId);
    if plan.Success? {
      db.chats := db.chats + [plan.value.chat];
      r := Success(plan.value.notices);
    } else {
      r := Failure(plan.error);
    }
  }

  // ---------------------------------------------------------------------
  // addToGroup
  // ---------------------------------------------------------------------

  /** The listed users not yet in the chat, in list order (repeats in the list are kept). */
  function Newcomers(chat: Chat, members: seq<UserId>): (r: seq<UserId>)
    ensures forall u :: u in r <==> u in members && u !in chat.members
    ensures forall u :: multiset(r)[u] == if u in chat.members then 0 else multiset(members)[u]
    ensures |r| <= |members|
  {
    var isNew := (u: UserId) => u !in chat.members;
    assert forall u :: multiset(Filter(members, isNew))[u] == if u in chat.members then 0 else multiset(members)[u] by {
      forall u ensures multiset(Filter(members, isNew))[u] == if u in chat.members then 0 else multiset(members)[u] {
        FilterMultiplicity(members, isNew, u);
      }
    }
    Filter(members, isNew)
  }

  /** The newcomers keep the order of the list: a longer list only adds newcomers at the end. */
  lemma NewcomersInListOrder(chat: Chat, xs: seq<UserId>, ys: seq<UserId>)
    ensures Newcomers(chat, xs + ys) == Newcomers(chat, xs) + Newcomers(chat, ys)
  {
    FilterAppend(xs, ys, (u: UserId) => u !in chat.members);
  }

  /**
   * `addToGroup`: the chat and its populated creator must exist (reading
   * them otherwise fails), only the creator may add, the list must be
   * non-empty, at least one listed user must be new, and the grown group
   * may not exceed 100 members; the new users are appended in list order.
   */
  function PlanAddToGroup(chat: Option<Chat>, users: seq<User>, me: UserId, members: Option<seq<UserId>>): (r: Result<Chat>)
    ensures chat.None? ==> r == Failure(NullAccess)
    ensures chat.Some? && (chat.value.creator.None? || FindUser(users, chat.value.creator.value).None?) ==>
              r == Failure(NullAccess)
    ensures (chat.Some? && chat.value.creator.Some? && FindUser(users, chat.value.creator.value).Some? &&
             chat.value.creator.value != me) ==> r == Failure(NotAdmin)
    ensures chat.Some? && chat.value.creator == Some(me) && FindUser(users, me).Some? ==>
              ((members.None? || members.value == []) <==> r == Failure(NoMembersGiven)) &&
              (members.Some? && members.value != [] && Newcomers(chat.value, members.value) == [] <==> r == Failure(AlreadyMembers)) &&
              ((members.Some? && Newcomers(chat.value, members.value) != [] &&
                |chat.value.members| + |Newcomers(chat.value, members.value)| > MaxMembers) <==> r == Failure(LimitReached))
    ensures r.Success? ==>
              var before := chat.value;
              before.creator == Some(me) && members.Some? &&
              r.value == before.(members := r.value.members) &&
              before.members <= r.value.members &&
              |before.members| < |r.value.members| <= MaxMembers &&
              (forall u :: u in members.value ==> u in r.value.members) &&
              (forall i :: |before.members| <= i < |r.value.members| ==>
                             r.value.members[i] in members.value && r.value.members[i] !in before.members)
    ensures r.Success? ==> r.value.members == chat.value.members + Newcomers(chat.value, members.value)
    ensures (chat.Some? && chat.value.creator == Some(me) && FindUser(users, me).Some? && members.Some? &&
             Newcomers(chat.value, members.value) != [] &&
             |chat.value.members| + |Newcomers(chat.value, members.value)| <= MaxMembers) ==> r.Success?
  {
    if chat.None? then Failure(NullAccess)
    else
      var c := chat.value;
      if c.creator.None? || FindUser(users, c.creator.value).None? then Failure(NullAccess)
      else if me != c.creator.value then Failure(NotAdmin)
      else if members.None? || |members.value| < 1 then Failure(NoMembersGiven)
      else
        var joining := Newcomers(c, members.value);
        if |joining| < 1 then Failure(AlreadyMembers)
        else
          var grown := c.members + joining;
          if |grown| > MaxMembers then Failure(LimitReached)
          else
            assert forall i :: |c.members| <= i < |grown| ==> grown[i] == joining[i - |c.members|];
            Success(c.(members := grown))
  }

  /** Adding members keeps the creator a member. */
  lemma AddKeepsCreator(chat: Chat, users: seq<User>, me: UserId, members: Option<seq<UserId>>)
    requires CreatorIsMember(chat)
    requires PlanAddToGroup(Some(chat), users, me, members).Success?
    ensures CreatorIsMember(PlanAddToGroup(Some(chat), users, me, members).value)
  {
    var grown := PlanAddToGroup(Some(chat), users, me, members).value;
    assert chat.members <= grown.members;
    assert chat.creator.value in grown.members by {
      var k :| 0 <= k < |chat.members| && chat.members[k] == chat.creator.value;
      assert grown.members[k] == chat.creator.value;
    }
  }

  method AddToGroup(db: Database, chatId: ChatId, me: UserId, members: Option<seq<UserId>>)
    returns (r: Result<seq<Notice>>)
    modifies db
    ensures var at := FindChat(old(db.chats), chatId);
            var plan := PlanAddToGroup(ChatAt(old(db.chats), at), old(db.users), me, members);
            (plan.Success? ==> r == Success([Notice(ALERT, plan.value.members, Text("Added to the group."))]) &&
                               db.chats == old(db.chats)[at.value := plan.value]) &&
            (plan.Failure? ==> r == Failure(plan.error) && db.chats == old(db.chats))
    ensures db.users == old(db.users) && db.messages == old(db.messages) && db.requests == old(db.requests)
  {
    var at := FindChat(db.chats, chatId);
    var plan := PlanAddToGroup(ChatAt(db.chats, at), db.users, me, members);
    if plan.Success? {
      db.chats := db.chats[at.value := plan.value];
      r := Success([Notice(ALERT, plan.value.members, Text("Added to the group."))]);
    } else {
      r := Failure(plan.error);
    }
  }

  // ---------------------------------------------------------------------
  // removeFromGroup and leaveGroup
  // ---------------------------------------------------------------------

  /**
   * The chat once `leaving` is gone: every occurrence is removed, and if
   * `leaving` was the creator, the member at position `pick` (the random
   * draw, taken modulo the count) of the rest becomes creator, or no one
   * when no one is left.
   */
  function WithoutMember(chat: Chat, leaving: UserId, pick: nat): (c: Chat)
    ensures c == chat.(members := c.members, creator := c.creator)
    ensures forall u :: u in c.members <==> u in chat.members && u != leaving
    ensures multiset(c.members) == multiset(chat.members)[leaving := 0]
    ensures chat.creator != Some(leaving) ==> c.creator == chat.creator
    ensures chat.creator == Some(leaving) ==> (c.creator.Some? <==> c.members != [])
    ensures CreatorIsMember(chat) ==> CreatorIsMember(c)
    ensures chat.creator == Some(leaving) ==> CreatorIsMember(c)
  {
    var rest := Without(chat.members, leaving);
    var creator := if chat.creator == Some(leaving) then (if rest == [] then None else Some(rest[pick % |rest|]))
                   else chat.creator;
    chat.(members := rest, creator := creator)
  }

  /**
   * `removeFromGroup`: reading the chat, its creator and the target user
   * must succeed, only the creator may remove, and the target must be a
   * member.
   */
  function PlanRemoveFromGroup(chat: Option<Chat>, target: Option<User>, me: UserId, pick: nat): (r: Result<Chat>)
    ensures chat.None? || chat.value.creator.None? ==> r == Failure(NullAccess)
    ensures chat.Some? && chat.value.creator.Some? && chat.value.creator.value != me ==> r == Failure(NotAdmin)
    ensures chat.Some? && chat.value.creator == Some(me) && target.None? ==> r == Failure(NullAccess)
    ensures chat.Some? && chat.value.creator == Some(me) && target.Some? && target.value.id !in chat.value.members ==>
              r == Failure(NotInGroup)
    ensures r.Success? <==> chat.Some? && chat.value.creator == Some(me) && target.Some? && target.value.id in chat.value.members
    ensures r.Success? ==> r.value == WithoutMember(chat.value, target.value.id, pick)
  {
    if chat.None? || chat.value.creator.None? then Failure(NullAccess)
    else if me != chat.value.creator.value then Failure(NotAdmin)
    else if target.None? then Failure(NullAccess)
    else if target.value.id !in chat.value.members then Failure(NotInGroup)
    else Success(WithoutMember(chat.value, target.value.id, pick))
  }

  /**
   * `leaveGroup`: a missing chat or a non-member is refused; a chat with
   * no creator (a one-to-one chat) cannot be read past the membership
   * check.
   */
  function PlanLeaveGroup(chat: Option<Chat>, me: UserId, pick: nat): (r: Result<Chat>)
    ensures chat.None? || me !in chat.value.members ==> r == Failure(NotInGroup)
    ensures chat.Some? && me in chat.value.members && chat.value.creator.None? ==> r == Failure(NullAccess)
    ensures r.Success? <==> chat.Some? && me in chat.value.members && chat.value.creator.Some?
    ensures r.Success? ==> r.value == WithoutMember(chat.value, me, pick) && me !in r.value.members
  {
    if chat.None? || me !in chat.value.members then Failure(NotInGroup)
    else if chat.value.creator.None? then Failure(NullAccess)
    else Success(WithoutMember(chat.value, me, pick))
  }

  method RemoveFromGroup(db: Database, chatId: ChatId, userId: UserId, me: UserId, pick: nat)
    returns (r: Result<seq<Notice>>)
    modifies db
    ensures var at := FindChat(old(db.chats), chatId);
            var target := FindUser(old(db.users), userId);
            var plan := PlanRemoveFromGroup(ChatAt(old(db.chats), at), target, me, pick);
            (plan.Success? ==> r == Success([Notice(ALERT, plan.value.members, Text(target.value.name + " has been removed from the group."))]) &&
                               db.chats == old(db.chats)[at.value := plan.value]) &&
            (plan.Failure? ==> r == Failure(plan.error) && db.chats == old(db.chats))
    ensures db.users == old(db.users) && db.messages == old(db.messages) && db.requests == old(db.requests)
  {
    var at := FindChat(db.chats, chatId);
    var target := FindUser(db.users, userId);
    var plan := PlanRemoveFromGroup(ChatAt(db.chats, at), target, me, pick);
    if plan.Success? {
      db.chats := db.chats[at.value := plan.value];
      r := Success([Notice(ALERT, plan.value.members, Text(target.value.name + " has been removed from the group."))]);
    } else {
      r := Failure(plan.error);
    }
  }

  method LeaveGroup(db: Database, chatId: ChatId, me: User, pick: nat)
    returns (r: Result<seq<Notice>>)
    modifies db
    ensures var at := FindChat(old(db.chats), chatId);
            var plan := PlanLeaveGroup(ChatAt(old(db.chats), at), me.id, pick);
            (plan.Success? ==> r == Success([Notice(ALERT, plan.value.members, Text(me.name + " has left the group."))]) &&
                               db.chats == old(db.chats)[at.value := plan.value]) &&
            (plan.Failure? ==> r == Failure(plan.error) && db.chats == old(db.chats))
    ensures db.users == old(db.users) && db.messages == old(db.messages) && db.requests == old(db.requests)
  {
    var at := FindChat(db.chats, chatId);
    var plan := PlanLeaveGroup(ChatAt(db.chats, at), me.id, pick);
    if plan.Success? {
      db.chats := db.chats[at.value := plan.value];
      r := Success([Notice(ALERT, plan.value.members, Text(me.name + " has left the group."))]);
    } else {
      r := Failure(plan.error);
    }
  }

  // ---------------------------------------------------------------------
  // deleteChat
  // ---------------------------------------------------------------------

  /** The public ids of the attachments of `messages`, message by message, in order. */
  function PublicIds(messages: seq<Message>): seq<string> {
    if messages == [] then []
    else PublicIds(messages[..|messages| - 1]) + AttachmentIds(messages[|messages| - 1].attachments)
  }

  function AttachmentIds(attachments: seq<Attachment>): (r: seq<string>)
    ensures |r| == |attachments| && forall i :: 0 <= i < |r| ==> r[i] == attachments[i].publicId
  {
    seq(|attachments|, i requires 0 <= i < |attachments| => attachments[i].publicId)
  }

  /** Every attachment of every message contributes its public id. */
  lemma {:induction false} PublicIdsComplete(messages: seq<Message>, m: Message, a: Attachment)
    requires m in messages && a in m.attachments
    ensures a.publicId in PublicIds(messages)
  {
    var last := messages[|messages| - 1];
    if m == last {
      var k :| 0 <= k < |last.attachments| && last.attachments[k] == a;
      assert AttachmentIds(last.attachments)[k] == a.publicId;
    } else {
      assert m in messages[..|messages| - 1] by {
        var k :| 0 <= k < |messages| && messages[k] == m;
        assert k < |messages| - 1;
        assert messages[..|messages| - 1][k] == m;
      }
      PublicIdsComplete(messages[..|messages| - 1], m, a);
    }
  }

  /** Every collected id belongs to an attachment of one of the messages. */
  lemma {:induction false} PublicIdsSound(messages: seq<Message>, id: string)
    requires id in PublicIds(messages)
    ensures exists m, a :: m in messages && a in m.attachments && a.publicId == id
  {
    var front := messages[..|messages| - 1];
    var last := messages[|messages| - 1];
    if id in PublicIds(front) {
      PublicIdsSound(front, id);
      var m, a :| m in front && a in m.attachments && a.publicId == id;
      assert m in messages;
    } else {
      var ids := AttachmentIds(last.attachments);
      assert id in ids;
      var k :| 0 <= k < |ids| && ids[k] == id;
      assert last.attachments[k] in last.attachments;
    }
  }

  /** The nested loops of `deleteChat` that gather the public ids. */
  method CollectPublicIds(messages: seq<Message>) returns (ids: seq<string>)
    ensures ids == PublicIds(messages)
  {
    ids := [];
    var i := 0;
    while i < |messages|
      invariant 0 <= i <= |messages|
      invariant ids == PublicIds(messages[..i])
    {
      var attachments := messages[i].attachments;
      var j := 0;
      while j < |attachments|
        invariant 0 <= j <= |attachments|
        invariant ids == PublicIds(messages[..i]) + AttachmentIds(attachments[..j])
      {
        assert AttachmentIds(attachments[..j + 1]) == AttachmentIds(attachments[..j]) + [attachments[j].publicId];
        ids := ids + [attachments[j].publicId];
        j := j + 1;
      }
      assert attachments[..j] == attachments;
      assert messages[..i + 1][..i] == messages[..i];
      i := i + 1;
    }
    assert messages[..i] == messages;
  }

  function MessagesOf(messages: seq<Message>, chatId: ChatId): (r: seq<Message>)
    ensures forall m :: m in r <==> m in messages && m.chatId == chatId
  {
    Filter(messages, (m: Message) => m.chatId == chatId)
  }

  /** The messages of the chat that carry attachments (`attachments: { $exists: true, $ne: [] }`). */
  function MessagesWithFiles(messages: seq<Message>, chatId: ChatId): (r: seq<Message>)
    ensures forall m :: m in r <==> m in messages && m.chatId == chatId && m.attachments != []
  {
    Filter(messages, (m: Message) => m.chatId == chatId && m.attachments != [])
  }

  function OtherMessages(messages: seq<Message>, chatId: ChatId): (r: seq<Message>)
    ensures forall m :: m in r <==> m in messages && m.chatId != chatId
  {
    Filter(messages, (m: Message) => m.chatId != chatId)
  }

  /**
   * `deleteChat`: a missing chat and a non-member get 404. Otherwise the
   * public ids of the chat's attachments are handed to the file store
   * while the chat and all its messages are deleted; when the file store
   * fails (`cloudOk` false) the error is raised after the deletions and no
   * alert goes out, else every member but the requester is alerted.
   */
  method DeleteChat(db: Database, chatId: ChatId, me: UserId, cloudOk: bool)
    returns (r: Result<seq<Notice>>, handedOver: seq<string>)
    modifies db
    ensures var at := FindChat(old(db.chats), chatId);
            (at.None? ==> r == Failure(ChatNotFound) && db.chats == old(db.chats) && db.messages == old(db.messages) && handedOver == []) &&
            (at.Some? && me !in old(db.chats)[at.value].members ==>
               r == Failure(NotInChat) && db.chats == old(db.chats) && db.messages == old(db.messages) && handedOver == []) &&
            (at.Some? && me in old(db.chats)[at.value].members ==>
               var chat := old(db.chats)[at.value];
               handedOver == PublicIds(MessagesWithFiles(old(db.messages), chatId)) &&
               db.chats == old(db.chats)[..at.value] + old(db.chats)[at.value + 1..] &&
               db.messages == OtherMessages(old(db.messages), chatId) &&
               r == (if cloudOk then Success([Notice(ALERT, Without(chat.members, me), Text(chat.name))])
                     else Failure(CloudDeleteFailed)))
    ensures db.users == old(db.users) && db.requests == old(db.requests)
  {
    var at := FindChat(db.chats, chatId);
    if at.None? {
      return Failure(ChatNotFound), [];
    }
    var chat := db.chats[at.value];
    if me !in chat.members {
      return Failure(NotInChat), [];
    }
    handedOver := CollectPublicIds(MessagesWithFiles(db.messages, chatId));
    db.chats := db.chats[..at.value] + db.chats[at.value + 1..];
    db.messages := OtherMessages(db.messages, chatId);
    if !cloudOk {
      return Failure(CloudDeleteFailed), handedOver;
    }
    r := Success([Notice(ALERT, Without(chat.members, me), Text(chat.name))]);
  }

  // ---------------------------------------------------------------------
  // sendAtachment
  // ---------------------------------------------------------------------

  /**
   * `sendAtachment`: the chat must exist and at least one file must come
   * with the request; the uploaded attachments are stored as a message
   * with empty content and announced to every member of the chat. The
   * sender's membership is not checked. `uploaded` is the file store's
   * answer; `freshId` and `now` the new record's id and time.
   */
  function PlanAttachment(chat: Option<Chat>, me: User, fileCount: nat, uploaded: Result<seq<Attachment>>,
                          freshId: string, now: int): (r: Result<(Message, Notice)>)
    ensures chat.None? ==> r == Failure(ChatMissing)
    ensures chat.Some? && fileCount < 1 ==> r == Failure(NoFileSelected)
    ensures chat.Some? && fileCount >= 1 && uploaded.Failure? ==> r == Failure(uploaded.error)
    ensures r.Success? <==> chat.Some? && fileCount >= 1 && uploaded.Success?
    ensures r.Success? ==>
              var (m, n) := r.value;
              m == Message(freshId, chat.value.id, me.id, "", uploaded.value, now) &&
              n.event == NEW_MESSAGE && n.users == chat.value.members &&
              n.payload == Envelope(chat.value.id, WithAttachments(Sender(me.id, me.name, Some(me.avatar.url)), "", chat.value.id, uploaded.value))
  {
    if chat.None? then Failure(ChatMissing)
    else if fileCount < 1 then Failure(NoFileSelected)
    else match uploaded
      case Failure(e) => Failure(e)
      case Success(attachments) =>
        var c := chat.value;
        Success((Message(freshId, c.id, me.id, "", attachments, now),
                 Notice(NEW_MESSAGE, c.members,
                        Envelope(c.id, WithAttachments(Sender(me.id, me.name, Some(me.avatar.url)), "", c.id, attachments)))))
  }

  /** Someone outside a chat can still post attachments to it. */
  lemma OutsiderCanSendAttachment(chat: Chat, me: User, attachments: seq<Attachment>, freshId: string, now: int)
    requires me.id !in chat.members
    ensures PlanAttachment(Some(chat), me, 1, Success(attachments), freshId, now).Success?
  {
  }

  method SendAttachment(db: Database, chatId: ChatId, me: User, fileCount: nat, uploaded: Result<seq<Attachment>>,
                        freshId: string, now: int) returns (r: Result<seq<Notice>>)
    modifies db
    ensures var plan := PlanAttachment(ChatAt(old(db.chats), FindChat(old(db.chats), chatId)), me, fileCount, uploaded, freshId, now);
            (plan.Success? ==> r == Success([plan.value.1]) && db.messages == old(db.messages) + [plan.value.0]) &&
            (plan.Failure? ==> r == Failure(plan.error) && db.messages == old(db.messages))
    ensures db.users == old(db.users) && db.chats == old(db.chats) && db.requests == old(db.requests)
  {
    var plan := PlanAttachment(ChatAt(db.chats, FindChat(db.chats, chatId)), me, fileCount, uploaded, freshId, now);
    if plan.Success? {
      db.messages := db.messages + [plan.value.0];
      r := Success([plan.value.1]);
    } else {
      r := Failure(plan.error);
    }
  }

  // ---------------------------------------------------------------------
  // getMessages
  // ---------------------------------------------------------------------

  /**
   * `Math.ceil(a / b)` for a count `a` and a non-zero divisor (a zero
   * divisor gives Infinity or NaN, both sent as null).
   */
  function CeilDiv(a: nat, b: int): (q: int)
    requires b != 0
    ensures b > 0 ==> (q - 1) * b < a <= q * b
    ensures b > 0 ==> q >= 0
    ensures b < 0 ==> q <= 0
    ensures b < 0 ==> q * b <= a < (q - 1) * b
  {
    if b > 0 then
      var q := (a + b - 1) / b;
      assert a + b - 1 == q * b + (a + b - 1) % b;
      assert (q - 1) * b == q * b - b;
      q
    else
      var k := a / -b;
      assert a == k * -b + a % -b;
      assert (-k) * b == k * -b && (-k - 1) * b == k * -b + -b;
      -k
  }

  /** A sender after `populate("sender", "name avatar")`: its id, name and avatar. */
  datatype PopulatedSender = PopulatedSender(id: UserId, name: string, avatar: Attachment)

  /** A message as `getMessages` sends it; the sender is null when its user no longer exists. */
  datatype PageMessage = PageMessage(id: string, chatId: ChatId, sender: Option<PopulatedSender>, content: string,
                                     attachments: seq<Attachment>, createdAt: int)

  /** The message with its sender populated from the stored users. */
  function PopulateSender(users: seq<User>, m: Message): (pm: PageMessage)
    ensures pm.id == m.id && pm.chatId == m.chatId && pm.content == m.content &&
            pm.attachments == m.attachments && pm.createdAt == m.createdAt
    ensures pm.sender.None? <==> (forall u :: u in users ==> u.id != m.sender)
    ensures pm.sender.Some? ==> exists u :: u in users && u.id == m.sender &&
                                           pm.sender.value == PopulatedSender(u.id, u.name, u.avatar)
  {
    var sender := match FindUser(users, m.sender)
      case None => None
      case Some(u) => Some(PopulatedSender(u.id, u.name, u.avatar));
    PageMessage(m.id, m.chatId, sender, m.content, m.attachments, m.createdAt)
  }

  /** `populate("sender", ...)` over a page: one populated message per message, in order. */
  function PopulateSenders(users: seq<User>, page: seq<Message>): (r: seq<PageMessage>)
    ensures |r| == |page| && forall i :: 0 <= i < |page| ==> r[i] == PopulateSender(users, page[i])
  {
    seq(|page|, i requires 0 <= i < |page| => PopulateSender(users, page[i]))
  }

  datatype MessagePage = MessagePage(totalPages: Option<int>, messages: seq<PageMessage>)

  function Abs(n: int): nat {
    if n < 0 then -n else n
  }

  /**
   * The query `sort(newest first).skip(skip).limit(n)` followed by
   * `reverse()`, over a list kept oldest first: the result is the stretch
   * that ends `skip` items before the newest, oldest first, holding at
   * most |n| items (all of them when n is 0).
   */
  function Window<T>(all: seq<T>, skip: nat, n: int): (page: seq<T>)
    ensures var s := if skip < |all| then skip else |all|;
            |page| == (if n == 0 || Abs(n) >= |all| - s then |all| - s else Abs(n)) &&
            page == all[|all| - s - |page| .. |all| - s]
  {
    var newestFirst := Reverse(all);
    var rest := if skip < |newestFirst| then newestFirst[skip..] else [];
    var kept := if n == 0 || Abs(n) >= |rest| then rest else rest[..Abs(n)];
    var page := Reverse(kept);
    var s := |all| - |rest|;
    assert s == (if skip < |all| then skip else |all|);
    assert |page| == |kept| == (if n == 0 || Abs(n) >= |all| - s then |all| - s else Abs(n));
    assert page == all[|all| - s - |kept| .. |all| - s] by {
      forall j | 0 <= j < |kept|
        ensures page[j] == all[|all| - s - |kept| + j]
      {
        assert page[j] == kept[|kept| - 1 - j];
        assert kept[|kept| - 1 - j] == newestFirst[s + |kept| - 1 - j];
      }
    }
    page
  }

  /**
   * `getMessages`: members only. `page` (default 1) and `resultPerPage`
   * (default 20) give `skip = (page - 1) * resultPerPage`, which the
   * database refuses when negative; the page is the `Window` of the chat's
   * messages, each with its sender populated, and the page count is the ceiling of the message count over
   * the page size (null for a zero page size). The store keeps each
   * chat's messages in creation order, so newest first is the reverse of
   * store order.
   */
  function GetMessages(chat: Option<Chat>, me: UserId, messages: seq<Message>, users: seq<User>,
                       page: Option<int>, perPage: Option<int>): (r: Result<MessagePage>)
    ensures chat.None? ==> r == Failure(ChatMissing)
    ensures chat.Some? && me !in chat.value.members ==> r == Failure(NotAllowed)
    ensures chat.Some? && me in chat.value.members ==>
              var p := if page.Some? then page.value else 1;
              var n := if perPage.Some? then perPage.value else 20;
              var all := MessagesOf(messages, chat.value.id);
              ((p - 1) * n < 0 <==> r == Failure(NegativeSkip)) &&
              ((p - 1) * n >= 0 <==> r.Success?) &&
              (r.Success? ==>
                 r.value.messages == PopulateSenders(users, Window(all, (p - 1) * n, n)) &&
                 (n == 0 <==> r.value.totalPages.None?) &&
                 (n > 0 ==> (r.value.totalPages.value - 1) * n < |all| <= r.value.totalPages.value * n) &&
                 (n < 0 ==> r.value.totalPages.value * n <= |all| < (r.value.totalPages.value - 1) * n))

  {
    if chat.None? then Failure(ChatMissing)
    else if me !in chat.value.members then Failure(NotAllowed)
    else
      var p := if page.Some? then page.value else 1;
      var n := if perPage.Some? then perPage.value else 20;
      var skip := (p - 1) * n;
      if skip < 0 then Failure(NegativeSkip)
      else
        var all := MessagesOf(messages, chat.value.id);
        var total := if n == 0 then None else Some(CeilDiv(|all|, n));
        assert n > 0 ==> (total.value - 1) * n < |all| <= total.value * n;
        Success(MessagePage(total, PopulateSenders(users, Window(all, skip, n))))
  }

  /** Multiplying by a positive page size keeps the order of page numbers. */
  lemma MulMonotone(a: int, b: int, n: int)
    requires a <= b && n > 0
    ensures a * n <= b * n
  {
  }

  /**
   * With a positive page size, page `p` (from 1) holds messages exactly
   * when `p` is at most the reported number of pages.
   */
  lemma PageFilledIffWithinTotal(chat: Chat, me: UserId, messages: seq<Message>, users: seq<User>, p: int, n: int)
    requires me in chat.members && p >= 1 && n > 0
    ensures var r := GetMessages(Some(chat), me, messages, users, Some(p), Some(n));
            r.Success? && (r.value.messages != [] <==> p <= r.value.totalPages.value)
  {
    var r := GetMessages(Some(chat), me, messages, users, Some(p), Some(n));
    var all := MessagesOf(messages, chat.id);
    var t := CeilDiv(|all|, n);
    MulMonotone(0, p - 1, n);
    assert r.Success?;
    assert r.value.totalPages == Some(t);
    assert |r.value.messages| == |Window(all, (p - 1) * n, n)|;
    if p <= t {
      MulMonotone(p - 1, t - 1, n);
    } else {
      MulMonotone(t, p - 1, n);
    }
  }

  // ---------------------------------------------------------------------
  // fetchChats and getMygroups
  // ---------------------------------------------------------------------

  /** One entry of a chat listing. */
  datatype ChatView = ChatView(id: ChatId, name: string, avatar: seq<string>, groupChat: bool,
                               members: seq<User>, creator: Option<User>)

  /**
   * The listing entry of a chat for `me`: its populated members other than
   * `me`, and as avatar either the first three members' urls
   * (`firstThree`) or the urls of the members listed.
   */
  function ViewOf(c: Chat, users: seq<User>, me: UserId, firstThree: bool): (v: ChatView)
    ensures v.id == c.id && v.name == c.name && v.groupChat == c.groupChat
    ensures forall u :: u in v.members <==> u in Populate(users, c.members) && u.id != me
    ensures v.members == Others(Populate(users, c.members), me)
    ensures firstThree ==> v.avatar == AvatarUrls(FirstThree(Populate(users, c.members))) && |v.avatar| <= 3
    ensures !firstThree ==> v.avatar == AvatarUrls(v.members)
    ensures v.creator == (if c.creator.Some? then FindUser(users, c.creator.value) else None)
  {
    var members := Populate(users, c.members);
    var others := Others(members, me);
    ChatView(c.id, c.name, if firstThree then AvatarUrls(FirstThree(members)) else AvatarUrls(others),
             c.groupChat, others, if c.creator.Some? then FindUser(users, c.creator.value) else None)
  }

  function MyChats(chats: seq<Chat>, me: UserId): (r: seq<Chat>)
    ensures forall c :: c in r <==> c in chats && me in c.members
  {
    Filter(chats, (c: Chat) => me in c.members)
  }

  function MyGroups(chats: seq<Chat>, me: UserId): (r: seq<Chat>)
    ensures forall c :: c in r <==> c in chats && c.groupChat && me in c.members
  {
    Filter(chats, (c: Chat) => c.groupChat && me in c.members)
  }

  /**
   * `fetchChats`: one entry per chat `me` belongs to; a group shows its
   * first three members' avatars, a one-to-one chat the other member's.
   */
  function FetchChats(chats: seq<Chat>, users: seq<User>, me: UserId): (r: seq<ChatView>)
    ensures |r| == |MyChats(chats, me)|
    ensures forall i :: 0 <= i < |r| ==> r[i] == ViewOf(MyChats(chats, me)[i], users, me, MyChats(chats, me)[i].groupChat)
  {
    var mine := MyChats(chats, me);
    seq(|mine|, i requires 0 <= i < |mine| => ViewOf(mine[i], users, me, mine[i].groupChat))
  }

  /** `getMygroups`: one entry per group `me` belongs to, always with the first three avatars. */
  function GetMyGroups(chats: seq<Chat>, users: seq<User>, me: UserId): (r: seq<ChatView>)
    ensures |r| == |MyGroups(chats, me)|
    ensures forall i :: 0 <= i < |r| ==> r[i] == ViewOf(MyGroups(chats, me)[i], users, me, true)
  {
    var mine := MyGroups(chats, me);
    seq(|mine|, i requires 0 <= i < |mine| => ViewOf(mine[i], users, me, true))
  }

  /** No listing entry shows `me` among the members. */
  lemma ListingsOmitMe(chats: seq<Chat>, users: seq<User>, me: UserId)
    ensures forall i, u :: 0 <= i < |FetchChats(chats, users, me)| && u in FetchChats(chats, users, me)[i].members ==> u.id != me
    ensures forall i, u :: 0 <= i < |GetMyGroups(chats, users, me)| && u in GetMyGroups(chats, users, me)[i].members ==> u.id != me
  {
  }
}

=== FILE: errors.dfy ===
/**
 * The error middleware of src/middlewares/errorMiddleware.js: it fills in a
 * missing message and status on the error object it receives, rewrites
 * cast errors, and answers with the final status.
 */
module ErrorMiddleware {
  import opened Base

  /** `!status`: undefined, 0 and the empty string are falsy. */
  predicate FalsyStatus(st: Status) {
    st.NoStatus? || st == Code(0) || st == Label("")
  }

  const DefaultMessage := "Internal Server Error"
  const CastErrorName := "CastError"

  /** The error as the middleware leaves it. */
  function Normalised(e: ApiError): (n: ApiError)
    ensures n.name == e.name && n.path == e.path
    ensures !FalsyStatus(n.status) && n.message != ""
    ensures e.name == CastErrorName ==> n.status == Code(400) && n.message == "Invalid format of " + e.path
    ensures e.name != CastErrorName ==>
              n.status == (if FalsyStatus(e.status) then Code(500) else e.status) &&
              n.message == (if e.message == "" then DefaultMessage else e.message)
  {
    var message := if e.message == "" then DefaultMessage else e.message;
    var status := if FalsyStatus(e.status) then Code(500) else e.status;
    if e.name == CastErrorName then ApiError(e.name, Code(400), "Invalid format of " + e.path, e.path)
    else ApiError(e.name, status, message, e.path)
  }

  /** Normalising an already normalised error changes nothing. */
  lemma NormalisedIdempotent(e: ApiError)
    ensures Normalised(Normalised(e)) == Normalised(e)
  {
  }

  /** A thrown runtime error, which carries no status, is answered with 500. */
  lemma UncaughtErrorIs500(e: ApiError)
    requires e.status.NoStatus? && e.name != CastErrorName
    ensures Normalised(e).status == Code(500)
  {
  }

  /** The `message` member of the response body: the whole error in development mode, otherwise its text. */
  datatype Body = WholeError(error: ApiError) | MessageText(text: string)

  /**
   * What goes back to the client: the middleware's JSON answer, or the page
   * of Express's final handler when `res.json` throws.
   */
  datatype Response = Json(status: Status, success: bool, message: Body) | FinalHandlerPage(status: Status)

  const DevelopmentMode := "DEVELOPMENT"

  /** A status Node's `writeHead` accepts: an integer code of three digits. */
  predicate WritableStatus(st: Status) {
    st.Code? && 100 <= st.code <= 999
  }

  /**
   * The response built from an error that has already been normalised. A
   * status `writeHead` refuses, such as the text of a one-argument
   * `ErrorHandler`, makes `res.json` throw; Express hands that error to its
   * final handler, which answers 500 with its own page.
   */
  function Respond(e: ApiError, envMode: string): (r: Response)
    ensures r.Json? <==> WritableStatus(e.status)
    ensures r.Json? ==> r.status == e.status && !r.success
    ensures r.FinalHandlerPage? ==> r.status == Code(500)
    ensures r.Json? && envMode == DevelopmentMode ==> r.message == WholeError(e)
    ensures r.Json? && envMode != DevelopmentMode ==> r.message == MessageText(e.message)
  {
    if !WritableStatus(e.status) then FinalHandlerPage(Code(500))
    else Json(e.status, false, if envMode == DevelopmentMode then WholeError(e) else MessageText(e.message))
  }

  /**
   * An error whose status slot holds text (a one-argument `ErrorHandler`)
   * reaches the client as a 500 from the final handler, not as the JSON
   * error body.
   */
  lemma LabelStatusIs500(e: ApiError, envMode: string)
    requires e.status.Label? && e.status.text != "" && e.name != CastErrorName
    ensures Normalised(e).status == e.status
    ensures Respond(Normalised(e), envMode) == FinalHandlerPage(Code(500))
  {
  }

  /** The error object the middleware receives and updates in place. */
  class ErrorObject {
    var name: string
    var message: string
    var status: Status
    var path: string

    function Value(): ApiError
      reads this
    {
      ApiError(name, status, message, path)
    }

    constructor(e: ApiError)
      ensures Value() == e
    {
      name := e.name;
      message := e.message;
      status := e.status;
      path := e.path;
    }

    /** The two defaulting assignments and the cast-error rewrite. */
    method Normalise()
      modifies this
      ensures Value() == Normalised(old(Value()))
    {
      if message == "" {
        message := DefaultMessage;
      }
      if FalsyStatus(status) {
        status := Code(500);
      }
      if name == CastErrorName {
        message := "Invalid format of " + path;
        status := Code(400);
      }
    }
  }

  /** `errorMiddleware(err, req, res, next)`: normalises `err` in place and answers with it. */
  method HandleError(err: ErrorObject, envMode: string) returns (r: Response)
    modifies err
    ensures err.Value() == Normalised(old(err.Value()))
    ensures r == Respond(err.Value(), envMode)
    ensures r.status.Code? && 100 <= r.status.code <= 999
    ensures r.Json? ==> !r.success && r.status == err.Value().status
  {
    err.Normalise();
    r := Respond(err.Value(), envMode);
  }
}

=== FILE: helper.dfy ===
/**
 * The two helpers of src/lib/helper.js: resolving users to their registered
 * sockets, and formatting an uploaded file as a base64 data URL.
 */
module Helper {
  import opened Base

  /** `userSocketIds.get(user)`: the registered socket, or undefined. */
  function Lookup(registry: map<UserId, SocketId>, u: UserId): Option<SocketId> {
    if u in registry then Some(registry[u]) else None
  }

  /** `users.map(user => userSocketIds.get(user.toString()))`. */
  function SocketsOf(registry: map<UserId, SocketId>, users: seq<UserId>): (r: seq<Option<SocketId>>)
    ensures |r| == |users|
    ensures forall i :: 0 <= i < |users| ==> r[i] == Lookup(registry, users[i])
  {
    if users == [] then []
    else SocketsOf(registry, users[..|users| - 1]) + [Lookup(registry, users[|users| - 1])]
  }

  /**
   * `getUserSocket(users = [])`: one entry per input position, an unregistered
   * user giving undefined in its place; a missing argument gives an empty list.
   */
  function GetUserSocket(registry: map<UserId, SocketId>, users: Option<seq<UserId>>): (r: seq<Option<SocketId>>)
    ensures users.None? ==> r == []
    ensures users.Some? ==> |r| == |users.value|
    ensures users.Some? ==> forall i :: 0 <= i < |users.value| ==>
              (users.value[i] in registry ==> r[i] == Some(registry[users.value[i]])) &&
              (users.value[i] !in registry ==> r[i] == None)
  {
    match users
    case None => []
    case Some(us) => SocketsOf(registry, us)
  }

  const DataScheme := "data:"
  const Base64Marker := ";base64,"

  /**
   * `getBase64(file)`: the data URL of a file whose mime type is `mimetype`
   * and whose contents encode to `encoded` (the encoding itself is not part
   * of this model).
   */
  function GetBase64(mimetype: string, encoded: string): (url: string)
    ensures |url| == |DataScheme| + |mimetype| + |Base64Marker| + |encoded|
    ensures url[..|DataScheme|] == DataScheme
    ensures url[|DataScheme|..|DataScheme| + |mimetype|] == mimetype
    ensures url[|DataScheme| + |mimetype|..|DataScheme| + |mimetype| + |Base64Marker|] == Base64Marker
    ensures url[|DataScheme| + |mimetype| + |Base64Marker|..] == encoded
  {
    var url := DataScheme + mimetype + Base64Marker + encoded;
    var a, b, c := |DataScheme|, |DataScheme| + |mimetype|, |DataScheme| + |mimetype| + |Base64Marker|;
    assert url[..a] == DataScheme && url[a..b] == mimetype && url[b..c] == Base64Marker && url[c..] == encoded;
    url
  }

  /** Splits a base64 data URL back into its mime type and encoded contents. */
  function ParseDataUrl(url: string): (r: Option<(string, string)>)
    ensures r.Some? ==> url == GetBase64(r.value.0, r.value.1) && ';' !in r.value.0
  {
    if |url| < |DataScheme| || url[..|DataScheme|] != DataScheme then None
    else
      var rest := url[|DataScheme|..];
      match IndexWhere(rest, c => c == ';')
      case None => None
      case Some(k) =>
        if |rest| - k < |Base64Marker| || rest[k..k + |Base64Marker|] != Base64Marker then None
        else
          var mimetype, encoded := rest[..k], rest[k + |Base64Marker|..];
          assert rest == mimetype + Base64Marker + encoded by {
            assert rest == rest[..k] + rest[k..k + |Base64Marker|] + rest[k + |Base64Marker|..];
          }
          assert url == DataScheme + rest by {
            assert url == url[..|DataScheme|] + url[|DataScheme|..];
          }
          assert ';' !in mimetype by {
            forall j | 0 <= j < k ensures mimetype[j] != ';' { }
          }
          Some((mimetype, encoded))
  }

  /** A data URL built from a mime type without ';' reads back as the same two parts. */
  lemma {:induction false} DataUrlRoundTrip(mimetype: string, encoded: string)
    requires ';' !in mimetype
    ensures ParseDataUrl(GetBase64(mimetype, encoded)) == Some((mimetype, encoded))
  {
    var url := GetBase64(mimetype, encoded);
    var rest := mimetype + Base64Marker + encoded;
    assert url[..|DataScheme|] == DataScheme;
    assert url[|DataScheme|..] == rest;
    var k := IndexWhere(rest, c => c == ';');
    assert rest[|mimetype|] == ';';
    assert forall j :: 0 <= j < |mimetype| ==> rest[j] == mimetype[j] && rest[j] != ';';
    assert k == Some(|mimetype|);
    assert rest[|mimetype|..|mimetype| + |Base64Marker|] == Base64Marker;
    assert rest[..|mimetype|] == mimetype;
    assert rest[|mimetype| + |Base64Marker|..] == encoded;
  }
}

=== FILE: realtime.dfy ===
/**
 * The socket layer of src/index.js: the presence registry (`userSocketIds`
 * and `onlineUsers`), the socket handshake, the four message events and
 * disconnection, and the emitter the REST handlers use (src/utils/socket.js).
 *
 * Emissions follow the socket.io in-memory adapter: `to(list)` delivers to
 * every live socket whose id appears in the list (each socket sits in the
 * room named by its own id, an undefined entry names a room nobody is in,
 * and a socket hears an event once however often it is listed), except
 * that an EMPTY list adds no room at all and so reaches every live socket;
 * `socket.to(list)` and `socket.broadcast` leave out the originating socket.
 */
module Realtime {
  import opened Base
  import opened Helper
  import Auth

  // ---------------------------------------------------------------------
  // The presence registry as a value
  // ---------------------------------------------------------------------

  /**
   * `userSocketIds` (user id to socket id) and `onlineUsers`, a JavaScript
   * Set kept here as a sequence without duplicates in insertion order,
   * which is the order `Array.from` reports.
   */
  datatype Presence = Presence(userSocketIds: map<UserId, SocketId>, onlineUsers: seq<UserId>)
  {
    /** The registry's users are exactly the online users, each listed once. */
    ghost predicate Consistent() {
      NoDuplicates(onlineUsers) && userSocketIds.Keys == Elements(onlineUsers)
    }

    /** A user connects on socket `s`: the newest connection wins; the user is added to the set if absent. */
    function Connect(u: UserId, s: SocketId): (p: Presence)
      ensures Lookup(p.userSocketIds, u) == Some(s)
      ensures forall v :: v != u ==> Lookup(p.userSocketIds, v) == Lookup(userSocketIds, v)
      ensures Elements(p.onlineUsers) == Elements(onlineUsers) + {u}
      ensures onlineUsers <= p.onlineUsers
    {
      Presence(userSocketIds[u := s], if u in onlineUsers then onlineUsers else onlineUsers + [u])
    }

    /** A socket of user `u` disconnects: `u` leaves both structures, whichever socket was registered. */
    function Disconnect(u: UserId): (p: Presence)
      ensures Lookup(p.userSocketIds, u) == None && u !in p.onlineUsers
      ensures forall v :: v != u ==> Lookup(p.userSocketIds, v) == Lookup(userSocketIds, v)
      ensures forall v :: v != u ==> (v in p.onlineUsers <==> v in onlineUsers)
    {
      Presence(userSocketIds - {u}, Without(onlineUsers, u))
    }
  }

  const NoOneOnline := Presence(map[], [])

  lemma ConnectKeepsConsistent(p: Presence, u: UserId, s: SocketId)
    requires p.Consistent()
    ensures p.Connect(u, s).Consistent()
  {
    if u !in p.onlineUsers {
      var q := p.onlineUsers + [u];
      assert forall i :: 0 <= i < |p.onlineUsers| ==> q[i] == p.onlineUsers[i];
    }
  }

  lemma DisconnectKeepsConsistent(p: Presence, u: UserId)
    requires p.Consistent()
    ensures p.Disconnect(u).Consistent()
  {
    WithoutNoDuplicates(p.onlineUsers, u);
  }

  /** A connection or a disconnection, named by the user it concerns. */
  datatype Op = Join(user: UserId, socket: SocketId) | Leave(user: UserId)

  /** The registry after a sequence of connections and disconnections, starting empty. */
  function Replay(ops: seq<Op>): Presence {
    if ops == [] then NoOneOnline
    else
      var p := Replay(ops[..|ops| - 1]);
      match ops[|ops| - 1]
      case Join(u, s) => p.Connect(u, s)
      case Leave(u) => p.Disconnect(u)
  }

  /**
   * Reference reading of a history: the socket of `u`'s last connection,
   * provided no disconnection of `u` came after it.
   */
  function LatestSocket(ops: seq<Op>, u: UserId): Option<SocketId> {
    if ops == [] then None
    else match ops[|ops| - 1]
      case Join(v, s) => if v == u then Some(s) else LatestSocket(ops[..|ops| - 1], u)
      case Leave(v) => if v == u then None else LatestSocket(ops[..|ops| - 1], u)
  }

  /** Whatever the history, the registry's keys are the online users. */
  lemma {:induction false} ReplayConsistent(ops: seq<Op>)
    ensures Replay(ops).Consistent()
  {
    if ops != [] {
      var p := Replay(ops[..|ops| - 1]);
      ReplayConsistent(ops[..|ops| - 1]);
      match ops[|ops| - 1]
      case Join(u, s) => ConnectKeepsConsistent(p, u, s);
      case Leave(u) => DisconnectKeepsConsistent(p, u);
    }
  }

  /**
   * Whatever the history, the registry maps a user to the socket of their
   * latest connection not followed by a disconnection, and a user is online
   * exactly when there is such a connection.
   */
  lemma {:induction false} ReplayResolves(ops: seq<Op>, u: UserId)
    ensures Lookup(Replay(ops).userSocketIds, u) == LatestSocket(ops, u)
    ensures u in Replay(ops).onlineUsers <==> LatestSocket(ops, u).Some?
  {
    ReplayConsistent(ops);
    if ops != [] {
      ReplayResolves(ops[..|ops| - 1], u);
    }
  }

  /** A user connected twice and then disconnected from the OLDER socket is offline, though the newer socket lives on. */
  lemma StaleDisconnectDropsNewerSocket(u: UserId, older: SocketId, newer: SocketId)
    ensures var p := NoOneOnline.Connect(u, older).Connect(u, newer).Disconnect(u);
            Lookup(p.userSocketIds, u) == None && u !in p.onlineUsers
  {
  }

  // ---------------------------------------------------------------------
  // Recipients of an emission
  // ---------------------------------------------------------------------

  /**
   * The sockets that receive an emission addressed to `targets` (socket
   * ids, undefined entries allowed), leaving out `except`.
   */
  function Recipients(connected: set<SocketId>, targets: seq<Option<SocketId>>, except: set<SocketId>): (r: set<SocketId>)
    ensures r <= connected && r !! except
    ensures targets == [] ==> r == connected - except
    ensures targets != [] ==> forall s :: s in r <==> s in connected && s !in except && Some(s) in targets
  {
    if targets == [] then connected - except
    else set s | s in connected && s !in except && Some(s) in targets
  }

  /**
   * Addressing a non-empty list of users whose registered sockets are all
   * live reaches exactly the registered sockets of the listed users, minus
   * `except`.
   */
  lemma {:induction false} ResolvedRecipients(registry: map<UserId, SocketId>, connected: set<SocketId>,
                                              users: seq<UserId>, except: set<SocketId>, s: SocketId)
    requires forall u :: u in registry ==> registry[u] in connected
    requires users != []
    ensures s in Recipients(connected, GetUserSocket(registry, Some(users)), except) <==>
              s !in except && exists i :: 0 <= i < |users| && users[i] in registry && registry[users[i]] == s
  {
    var targets := GetUserSocket(registry, Some(users));
    if exists i :: 0 <= i < |users| && users[i] in registry && registry[users[i]] == s {
      var i :| 0 <= i < |users| && users[i] in registry && registry[users[i]] == s;
      assert targets[i] == Some(s);
    }
    if Some(s) in targets {
      var i :| 0 <= i < |targets| && targets[i] == Some(s);
      assert users[i] in registry && registry[users[i]] == s;
    }
  }

  /** Addressing only offline users reaches nobody: their undefined entries name no socket. */
  lemma AllOfflineReachesNobody(registry: map<UserId, SocketId>, connected: set<SocketId>,
                                users: seq<UserId>, except: set<SocketId>)
    requires users != []
    requires forall i :: 0 <= i < |users| ==> users[i] !in registry
    ensures Recipients(connected, GetUserSocket(registry, Some(users)), except) == {}
  {
    var targets := GetUserSocket(registry, Some(users));
    assert forall i :: 0 <= i < |targets| ==> targets[i] == None;
  }

  /** Addressing an empty or missing member list reaches every live socket but the excluded ones. */
  lemma EmptyListBroadcasts(registry: map<UserId, SocketId>, connected: set<SocketId>,
                            members: Option<seq<UserId>>, except: set<SocketId>)
    requires members == None || members == Some([])
    ensures Recipients(connected, GetUserSocket(registry, members), except) == connected - except
  {
  }

  // ---------------------------------------------------------------------
  // The server
  // ---------------------------------------------------------------------

  /** One `emit`: an event, its data, and the sockets it reaches. */
  datatype Emission = Emission(event: string, payload: Payload, recipients: set<SocketId>)

  /** The record handed to `Message.create` by the socket handler. */
  datatype MessageRecord = MessageRecord(chatId: ChatId, content: string, sender: UserId)

  const SendFailed := HttpError(500, "Error while sending message")

  /**
   * The module-level state of src/index.js together with the socket layer
   * around it: the live authenticated sockets and their users, the
   * presence registry, every emission so far, and the messages the socket
   * handler has stored.
   */
  class Server {
    var sockets: map<SocketId, User>
    var userSocketIds: map<UserId, SocketId>
    var onlineUsers: seq<UserId>
    var trace: seq<Emission>
    var stored: seq<MessageRecord>
    /** Every connection and disconnection so far. */
    ghost var history: seq<Op>

    function Registry(): Presence
      reads this
    {
      Presence(userSocketIds, onlineUsers)
    }

    /**
     * The registry is the replay of the history, its keys are the online
     * users, and each registered socket is live and belongs to its user.
     */
    ghost predicate Valid()
      reads this
    {
      Registry() == Replay(history) &&
      Registry().Consistent() &&
      forall u :: u in userSocketIds ==> userSocketIds[u] in sockets && sockets[userSocketIds[u]].id == u
    }

    constructor()
      ensures Valid()
      ensures sockets == map[] && Registry() == NoOneOnline && trace == [] && stored == []
    {
      sockets := map[];
      userSocketIds := map[];
      onlineUsers := [];
      trace := [];
      stored := [];
      history := [];
    }

    /** The "connection" handler: registers the authenticated user of a new socket. */
    method Connect(s: SocketId, user: User)
      requires Valid() && s !in sockets
      modifies this
      ensures Valid()
      ensures sockets == old(sockets)[s := user]
      ensures Registry() == old(Registry()).Connect(user.id, s)
      ensures history == old(history) + [Join(user.id, s)]
      ensures trace == old(trace) && stored == old(stored)
    {
      var next := Registry().Connect(user.id, s);
      ConnectKeepsConsistent(Registry(), user.id, s);
      assert Replay(history + [Join(user.id, s)]) == next by {
        assert (history + [Join(user.id, s)])[..|history|] == history;
      }
      var live := sockets[s := user];
      forall v | v in next.userSocketIds
        ensures next.userSocketIds[v] in live && live[next.userSocketIds[v]].id == v
      {
        if v != user.id {
          assert next.userSocketIds[v] == userSocketIds[v] != s;
        }
      }
      userSocketIds, onlineUsers := next.userSocketIds, next.onlineUsers;
      sockets := live;
      history := history + [Join(user.id, s)];
      assert Registry() == next;
    }

    /**
     * The socket handshake: the authenticator decides, and only a socket it
     * accepts is connected.
     */
    method Handshake(s: SocketId, err: Option<ApiError>, cookies: map<string, string>,
                     verify: string -> Result<Auth.Claims>,
                     findUser: Option<UserId> -> Result<Option<User>>) returns (outcome: Auth.AuthOutcome)
      requires Valid() && s !in sockets
      modifies this
      ensures Valid()
      ensures outcome == Auth.SocketAuthenticator(err, cookies, verify, findUser)
      ensures outcome.user.Some? ==> sockets == old(sockets)[s := outcome.user.value] &&
                                     Registry() == old(Registry()).Connect(outcome.user.value.id, s)
      ensures outcome.user.None? ==> sockets == old(sockets) && Registry() == old(Registry()) &&
                                     history == old(history)
      ensures trace == old(trace) && stored == old(stored)
    {
      outcome := Auth.SocketAuthenticator(err, cookies, verify, findUser);
      if outcome.user.Some? {
        Connect(s, outcome.user.value);
      }
    }

    /**
     * The "disconnect" handler: the socket's user leaves the registry even
     * when a newer socket of the same user is live, and the remaining
     * online users are broadcast to every other socket.
     */
    method Disconnect(s: SocketId)
      requires Valid() && s in sockets
      modifies this
      ensures Valid()
      ensures sockets == old(sockets) - {s}
      ensures Registry() == old(Registry()).Disconnect(old(sockets)[s].id)
      ensures history == old(history) + [Leave(old(sockets)[s].id)]
      ensures trace == old(trace) + [Emission(ONLINE_USERS, Users(onlineUsers), Recipients(old(sockets).Keys, [], {s}))]
      ensures stored == old(stored)
    {
      var u := sockets[s].id;
      DisconnectKeepsConsistent(Registry(), u);
      assert Replay(history + [Leave(u)]) == Registry().Disconnect(u) by {
        assert (history + [Leave(u)])[..|history|] == history;
      }
      userSocketIds := userSocketIds - {u};
      onlineUsers := Without(onlineUsers, u);
      sockets := sockets - {s};
      history := history + [Leave(u)];
      trace := trace + [Emission(ONLINE_USERS, Users(onlineUsers), Recipients(sockets.Keys + {s}, [], {s}))];
    }

    /**
     * NEW_MESSAGE from socket `s`: the realtime message and then the alert
     * go to the same resolved sockets before the record is stored; a
     * failed store raises 500 and the emissions stand. `freshId` and `now`
     * stand for `uuid()` and the ISO timestamp; `persisted` for whether
     * `Message.create` succeeds.
     */
    method OnNewMessage(s: SocketId, chatId: ChatId, members: Option<seq<UserId>>, message: string,
                        freshId: string, now: string, persisted: bool) returns (outcome: Option<ApiError>)
      requires Valid() && s in sockets
      modifies this
      ensures Valid()
      ensures sockets == old(sockets) && Registry() == old(Registry()) && history == old(history)
      ensures var user := sockets[s];
              var reach := Recipients(sockets.Keys, GetUserSocket(userSocketIds, members), {});
              trace == old(trace) + [Emission(NEW_MESSAGE, Envelope(chatId, Typed(message, freshId, Sender(user.id, user.name, None), chatId, now)), reach),
                                     Emission(NEW_MESSAGE_ALERT, ChatRef(chatId), reach)]
      ensures persisted ==> outcome == None && stored == old(stored) + [MessageRecord(chatId, message, sockets[s].id)]
      ensures !persisted ==> outcome == Some(SendFailed) && stored == old(stored)
    {
      var user := sockets[s];
      var live := Typed(message, freshId, Sender(user.id, user.name, None), chatId, now);
      var reach := Recipients(sockets.Keys, GetUserSocket(userSocketIds, members), {});
      trace := trace + [Emission(NEW_MESSAGE, Envelope(chatId, live), reach)];
      trace := trace + [Emission(NEW_MESSAGE_ALERT, ChatRef(chatId), reach)];
      if persisted {
        stored := stored + [MessageRecord(chatId, message, user.id)];
        outcome := None;
      } else {
        outcome := Some(SendFailed);
      }
    }

    /** START_TYPING or STOP_TYPING from socket `s`: `{chatId}` to the resolved sockets other than `s`. */
    method OnTyping(s: SocketId, event: string, chatId: ChatId, members: Option<seq<UserId>>)
      requires Valid() && s in sockets
      requires event == START_TYPING || event == STOP_TYPING
      modifies this
      ensures Valid()
      ensures sockets == old(sockets) && Registry() == old(Registry()) && history == old(history) && stored == old(stored)
      ensures trace == old(trace) + [Emission(event, ChatRef(chatId), Recipients(sockets.Keys, GetUserSocket(userSocketIds, members), {s}))]
      ensures s !in trace[|trace| - 1].recipients
    {
      trace := trace + [Emission(event, ChatRef(chatId), Recipients(sockets.Keys, GetUserSocket(userSocketIds, members), {s}))];
    }

    /** ONLINE_USERS: a snapshot of the online users to the resolved sockets. */
    method OnOnlineUsers(members: Option<seq<UserId>>)
      requires Valid()
      modifies this
      ensures Valid()
      ensures sockets == old(sockets) && Registry() == old(Registry()) && history == old(history) && stored == old(stored)
      ensures trace == old(trace) + [Emission(ONLINE_USERS, Users(onlineUsers), Recipients(sockets.Keys, GetUserSocket(userSocketIds, members), {}))]
      ensures Elements(trace[|trace| - 1].payload.ids) == userSocketIds.Keys
    {
      trace := trace + [Emission(ONLINE_USERS, Users(onlineUsers), Recipients(sockets.Keys, GetUserSocket(userSocketIds, members), {}))];
    }

    /** `emitEvent`: a REST handler's notice, addressed to the listed users' sockets. */
    method Notify(n: Notice)
      requires Valid()
      modifies this
      ensures Valid()
      ensures sockets == old(sockets) && Registry() == old(Registry()) && history == old(history) && stored == old(stored)
      ensures trace == old(trace) + [Emission(n.event, n.payload, Recipients(sockets.Keys, GetUserSocket(userSocketIds, Some(n.users)), {}))]
    {
      trace := trace + [Emission(n.event, n.payload, Recipients(sockets.Keys, GetUserSocket(userSocketIds, Some(n.users)), {}))];
    }
  }
}

=== FILE: store.dfy ===
/**
 * The database as the controllers see it: one collection per model, each
 * kept in insertion order, with the lookups the controllers issue
 * (`findById`, `findOne`, `populate`) read as searches over them.
 */
module Store {
  import opened Base

  /** The four collections; the controllers update them in place. */
  class Database {
    var users: seq<User>
    var chats: seq<Chat>
    var messages: seq<Message>
    var requests: seq<FriendRequest>

    constructor()
      ensures users == [] && chats == [] && messages == [] && requests == []
    {
      users := [];
      chats := [];
      messages := [];
      requests := [];
    }
  }

  /** `User.findById(id)`: the first user with that id, or null. */
  function FindUser(users: seq<User>, id: UserId): (r: Option<User>)
    ensures r.Some? ==> r.value in users && r.value.id == id
    ensures r.None? ==> forall i :: 0 <= i < |users| ==> users[i].id != id
  {
    if users == [] then None
    else if users[0].id == id then Some(users[0])
    else FindUser(users[1..], id)
  }

  /** The position of `Chat.findById(id)`, or None when there is no such chat. */
  function FindChat(chats: seq<Chat>, id: ChatId): (r: Option<nat>)
    ensures r.Some? ==> r.value < |chats| && chats[r.value].id == id
    ensures r.None? ==> forall i :: 0 <= i < |chats| ==> chats[i].id != id
  {
    IndexWhere(chats, (c: Chat) => c.id == id)
  }

  function ChatAt(chats: seq<Chat>, at: Option<nat>): (r: Option<Chat>)
    requires at.Some? ==> at.value < |chats|
    ensures r.Some? <==> at.Some?
  {
    if at.Some? then Some(chats[at.value]) else None
  }

  /**
   * `populate` of a list of user references: the referenced users in
   * reference order; a reference to a missing user is dropped.
   */
  function Populate(users: seq<User>, ids: seq<UserId>): (r: seq<User>)
    ensures |r| <= |ids|
    ensures forall u :: u in r ==> u in users && u.id in ids
    ensures forall i :: 0 <= i < |ids| && FindUser(users, ids[i]).Some? ==> FindUser(users, ids[i]).value in r
    ensures |ids| == 1 ==> r == if FindUser(users, ids[0]).Some? then [FindUser(users, ids[0]).value] else []
  {
    if ids == [] then []
    else
      var init, last := ids[..|ids| - 1], ids[|ids| - 1];
      var front := Populate(users, init);
      assert forall u :: u in front ==> u.id in ids by {
        forall u | u in front ensures u.id in ids {
          assert u.id in init;
        }
      }
      var tail := if FindUser(users, last).Some? then [FindUser(users, last).value] else [];
      assert forall i :: 0 <= i < |ids| && FindUser(users, ids[i]).Some? ==> FindUser(users, ids[i]).value in front + tail by {
        forall i | 0 <= i < |ids| && FindUser(users, ids[i]).Some?
          ensures FindUser(users, ids[i]).value in front + tail
        {
          if i < |init| {
            assert ids[i] == init[i];
          }
        }
      }
      front + tail
  }

  /** Populating one more reference appends that user when it exists. */
  lemma PopulateSnoc(users: seq<User>, ids: seq<UserId>, id: UserId)
    ensures Populate(users, ids + [id]) ==
            Populate(users, ids) + if FindUser(users, id).Some? then [FindUser(users, id).value] else []
  {
    var whole := ids + [id];
    assert whole[..|whole| - 1] == ids && whole[|whole| - 1] == id;
  }

  /** Populating a concatenation populates each part in turn, so the users come in reference order. */
  lemma {:induction false} PopulateAppend(users: seq<User>, xs: seq<UserId>, ys: seq<UserId>)
    ensures Populate(users, xs + ys) == Populate(users, xs) + Populate(users, ys)
  {
    if ys == [] {
      assert xs + ys == xs;
    } else {
      var init, last := ys[..|ys| - 1], ys[|ys| - 1];
      assert ys == init + [last];
      assert xs + ys == (xs + init) + [last];
      PopulateSnoc(users, xs + init, last);
      PopulateSnoc(users, init, last);
      PopulateAppend(users, xs, init);
      var front, middle := Populate(users, xs), Populate(users, init);
      var tail := if FindUser(users, last).Some? then [FindUser(users, last).value] else [];
      assert (front + middle) + tail == front + (middle + tail);
    }
  }

  /** When every reference resolves, nothing is dropped and the users come in reference order. */
  lemma {:induction false} PopulateAllFound(users: seq<User>, ids: seq<UserId>)
    requires forall i :: 0 <= i < |ids| ==> FindUser(users, ids[i]).Some?
    ensures |Populate(users, ids)| == |ids|
    ensures forall i :: 0 <= i < |ids| ==> Populate(users, ids)[i] == FindUser(users, ids[i]).value
  {
    if ids != [] {
      var init, last := ids[..|ids| - 1], ids[|ids| - 1];
      forall i | 0 <= i < |init| ensures FindUser(users, init[i]).Some? {
        assert init[i] == ids[i];
      }
      PopulateAllFound(users, init);
      assert FindUser(users, ids[|ids| - 1]).Some?;
      var front, u := Populate(users, init), FindUser(users, last).value;
      assert ids == init + [last];
      PopulateSnoc(users, init, last);
      assert Populate(users, ids) == front + [u];
      forall i | 0 <= i < |ids| ensures Populate(users, ids)[i] == FindUser(users, ids[i]).value {
        if i < |init| {
          assert ids[i] == init[i] && (front + [u])[i] == front[i];
        }
      }
    }
  }

  /** The avatar urls of a list of users. */
  function AvatarUrls(us: seq<User>): (r: seq<string>)
    ensures |r| == |us| && forall i :: 0 <= i < |us| ==> r[i] == us[i].avatar.url
  {
    seq(|us|, i requires 0 <= i < |us| => us[i].avatar.url)
  }

  /** The users other than `me`, in order. */
  function Others(us: seq<User>, me: UserId): (r: seq<User>)
    ensures forall u :: u in r <==> u in us && u.id != me
    ensures forall u :: multiset(r)[u] == if u.id == me then 0 else multiset(us)[u]
    ensures |r| <= |us|
  {
    var notMe := (u: User) => u.id != me;
    assert forall u :: multiset(Filter(us, notMe))[u] == if u.id == me then 0 else multiset(us)[u] by {
      forall u ensures multiset(Filter(us, notMe))[u] == if u.id == me then 0 else multiset(us)[u] {
        FilterMultiplicity(us, notMe, u);
      }
    }
    Filter(us, notMe)
  }

  /** The users other than `me` keep their order: a longer list only adds others at the end. */
  lemma OthersInOrder(xs: seq<User>, ys: seq<User>, me: UserId)
    ensures Others(xs + ys, me) == Others(xs, me) + Others(ys, me)
  {
    FilterAppend(xs, ys, (u: User) => u.id != me);
  }
}

=== FILE: users.dfy ===
/**
 * The account and friendship handlers of src/controllers/userController.js:
 * registration and login guards, the session cookie, user search, friend
 * requests and the friend list. Token signing (`generateToken`), password
 * checking, the avatar upload and the username pattern match are
 * parameters.
 */
module UserController {
  import opened Base
  import opened Store
  import Validation
  import ErrorMiddleware

  const Day30 := 1000 * 60 * 60 * 24 * 30
  const SessionCookieName := "Chat"
  const MissingFields := HttpError(400, "Please Enter all the Feilds")
  const UserExists := HttpError(400, "User Already Exist.")
  const InvalidCredentials := HttpError(404, "Invalid Credentials")
  /** What calling the ErrorHandler class without `new` throws. */
  const ConstructorWithoutNew := ApiError("TypeError", NoStatus, "Class constructor ErrorHandler cannot be invoked without 'new'", "")
  const RequestAlreadySent := HttpError(400, "Request already sent")
  const RequestNotFound := HttpError(400, "Request not found")
  const NotReceiver := HttpError(400, "You are not authorized to accept this request")

  /** The session cookie set on registration and login: the signed user id, for 30 days. */
  function SessionCookie(token: string): (c: Cookie)
    ensures c.name == SessionCookieName && c.value == token && c.maxAge == 2592000000
  {
    Cookie(SessionCookieName, token, Day30)
  }

  /** `logoutUser`: the session cookie emptied and expired at once. */
  function LogoutCookie(): (c: Cookie)
    ensures c.name == SessionCookieName && c.value == "" && c.maxAge == 0
  {
    Cookie(SessionCookieName, "", 0)
  }

  datatype Session = Session(user: User, cookie: Cookie)

  /** `User.findOne({ username })`: the first user with that username. */
  function FindByUsername(users: seq<User>, username: string): (r: Option<User>)
    ensures r.Some? ==> r.value in users && r.value.username == username
    ensures r.None? ==> forall i :: 0 <= i < |users| ==> users[i].username != username
  {
    match IndexWhere(users, (u: User) => u.username == username)
    case None => None
    case Some(k) => Some(users[k])
  }

  // ---------------------------------------------------------------------
  // registerUser
  // ---------------------------------------------------------------------

  /**
   * `registerUser` as written: a taken username reaches a call of the
   * ErrorHandler class without `new`, which throws a TypeError instead of
   * passing the intended 400 on.
   */
  function PlanRegisterAsWritten(users: seq<User>, name: Option<string>, username: Option<string>, password: Option<string>,
                                 bio: string, avatar: Result<Attachment>, freshId: UserId,
                                 sign: UserId -> string): (r: Result<Session>)
    ensures (!Truthy(name) || !Truthy(username) || !Truthy(password)) ==> r == Failure(MissingFields)
    ensures Truthy(name) && Truthy(username) && Truthy(password) && FindByUsername(users, username.value).Some? ==>
              r == Failure(ConstructorWithoutNew)
  {
    if !Truthy(name) || !Truthy(username) || !Truthy(password) then Failure(MissingFields)
    else if FindByUsername(users, username.value).Some? then Failure(ConstructorWithoutNew)
    else match avatar
      case Failure(e) => Failure(e)
      case Success(a) =>
        var u := User(freshId, name.value, username.value, password.value, bio, a);
        Success(Session(u, SessionCookie(sign(freshId))))
  }

  /** A second registration under a taken username is answered with 500, not 400. */
  lemma DuplicateRegistrationIs500(users: seq<User>, name: string, username: string, password: string,
                                   bio: string, avatar: Result<Attachment>, freshId: UserId, sign: UserId -> string)
    requires name != "" && username != "" && password != ""
    requires FindByUsername(users, username).Some?
    ensures var r := PlanRegisterAsWritten(users, Some(name), Some(username), Some(password), bio, avatar, freshId, sign);
            r.Failure? && ErrorMiddleware.Normalised(r.error).status == Code(500)
  {
  }

  /**
   * `registerUser` as intended: name, username and password are required;
   * a taken username is refused with 400; otherwise the user is created
   * with the uploaded avatar and a 30-day session cookie is issued.
   */
  function PlanRegister(users: seq<User>, name: Option<string>, username: Option<string>, password: Option<string>,
                        bio: string, avatar: Result<Attachment>, freshId: UserId,
                        sign: UserId -> string): (r: Result<Session>)
    ensures (!Truthy(name) || !Truthy(username) || !Truthy(password)) ==> r == Failure(MissingFields)
    ensures Truthy(name) && Truthy(username) && Truthy(password) && FindByUsername(users, username.value).Some? ==>
              r == Failure(UserExists)
    ensures r.Success? <==> Truthy(name) && Truthy(username) && Truthy(password) &&
                            FindByUsername(users, username.value).None? && avatar.Success?
    ensures r.Success? ==>
              r.value.user == User(freshId, name.value, username.value, password.value, bio, avatar.value) &&
              r.value.cookie == SessionCookie(sign(freshId))
  {
    if !Truthy(name) || !Truthy(username) || !Truthy(password) then Failure(MissingFields)
    else if FindByUsername(users, username.value).Some? then Failure(UserExists)
    else match avatar
      case Failure(e) => Failure(e)
      case Success(a) =>
        var u := User(freshId, name.value, username.value, password.value, bio, a);
        Success(Session(u, SessionCookie(sign(freshId))))
  }

  /** The two readings differ only in the error for a taken username, which both refuse. */
  lemma RegisterReadingsAgree(users: seq<User>, name: Option<string>, username: Option<string>, password: Option<string>,
                              bio: string, avatar: Result<Attachment>, freshId: UserId, sign: UserId -> string)
    ensures var written := PlanRegisterAsWritten(users, name, username, password, bio, avatar, freshId, sign);
            var intended := PlanRegister(users, name, username, password, bio, avatar, freshId, sign);
            written.Success? == intended.Success? &&
            (written.Success? ==> written == intended) &&
            (written != intended ==> written == Failure(ConstructorWithoutNew) && intended == Failure(UserExists))
  {
  }

  /** After a registration, the usernames in the store are still distinct. */
  lemma RegisterKeepsUsernamesDistinct(users: seq<User>, name: Option<string>, username: Option<string>, password: Option<string>,
                                       bio: string, avatar: Result<Attachment>, freshId: UserId, sign: UserId -> string)
    requires forall i, j :: 0 <= i < j < |users| ==> users[i].username != users[j].username
    requires PlanRegister(users, name, username, password, bio, avatar, freshId, sign).Success?
    ensures var after := users + [PlanRegister(users, name, username, password, bio, avatar, freshId, sign).value.user];
            forall i, j :: 0 <= i < j < |after| ==> after[i].username != after[j].username
  {
  }

  method RegisterUser(db: Database, name: Option<string>, username: Option<string>, password: Option<string>,
                      bio: string, avatar: Result<Attachment>, freshId: UserId, sign: UserId -> string)
    returns (r: Result<Session>)
    modifies db
    ensures r == PlanRegister(old(db.users), name, username, password, bio, avatar, freshId, sign)
    ensures r.Success? ==> db.users == old(db.users) + [r.value.user]
    ensures r.Failure? ==> db.users == old(db.users)
    ensures db.chats == old(db.chats) && db.messages == old(db.messages) && db.requests == old(db.requests)
  {
    r := PlanRegister(db.users, name, username, password, bio, avatar, freshId, sign);
    if r.Success? {
      db.users := db.users + [r.value.user];
    }
  }

  // ---------------------------------------------------------------------
  // loginUser
  // ---------------------------------------------------------------------

  /**
   * `loginUser`: username and password are required; the first user with
   * that username must accept the password, else 404 whichever check
   * failed.
   */
  function LoginUser(users: seq<User>, username: Option<string>, password: Option<string>,
                     passwordMatches: (User, string) -> bool, sign: UserId -> string): (r: Result<Session>)
    ensures (!Truthy(username) || !Truthy(password)) ==> r == Failure(MissingFields)
    ensures r.Success? <==> Truthy(username) && Truthy(password) && FindByUsername(users, username.value).Some? &&
                            passwordMatches(FindByUsername(users, username.value).value, password.value)
    ensures r.Failure? && Truthy(username) && Truthy(password) ==> r == Failure(InvalidCredentials)
    ensures r.Success? ==> r.value.user.username == username.value && r.value.user in users &&
                           r.value.cookie == SessionCookie(sign(r.value.user.id))
  {
    if !Truthy(username) || !Truthy(password) then Failure(MissingFields)
    else
      var found := FindByUsername(users, username.value);
      if found.Some? && passwordMatches(found.value, password.value) then
        Success(Session(found.value, SessionCookie(sign(found.value.id))))
      else Failure(InvalidCredentials)
  }

  // ---------------------------------------------------------------------
  // search
  // ---------------------------------------------------------------------

  function OneToOneChats(chats: seq<Chat>, me: UserId): (r: seq<Chat>)
    ensures forall c :: c in r <==> c in chats && !c.groupChat && me in c.members
  {
    Filter(chats, (c: Chat) => !c.groupChat && me in c.members)
  }

  /** Every member of the given chats (`flatMap(chat => chat.members)`). */
  function AllMembers(chats: seq<Chat>): (r: seq<UserId>)
    ensures forall u :: u in r <==> exists c :: c in chats && u in c.members
  {
    if chats == [] then []
    else
      var front := chats[..|chats| - 1];
      var last := chats[|chats| - 1];
      assert forall c :: c in chats <==> c in front || c == last;
      AllMembers(front) + last.members
  }

  /**
   * `search`: the users whose username matches the pattern, leaving out
   * `me` and everyone who shares a one-to-one chat with `me`, in store
   * order. `matches` stands for the case-insensitive pattern match.
   */
  function Search(chats: seq<Chat>, users: seq<User>, me: UserId, name: string,
                  matches: (string, string) -> bool): (r: seq<User>)
    ensures forall u :: u in r <==>
              u in users && u.id != me && matches(u.username, name) &&
              !(exists c :: c in chats && !c.groupChat && me in c.members && u.id in c.members)
  {
    var friends := AllMembers(OneToOneChats(chats, me));
    Filter(users, (u: User) => u.id !in friends && matches(u.username, name) && u.id != me)
  }

  // ---------------------------------------------------------------------
  // sendRequest
  // ---------------------------------------------------------------------

  predicate Between(r: FriendRequest, a: UserId, b: UserId) {
    (r.sender == a && r.receiver == b) || (r.sender == b && r.receiver == a)
  }

  /** `Request.findOne({ $or: [...] })`: the first request between the two users, either way round. */
  function FirstRequestBetween(requests: seq<FriendRequest>, a: UserId, b: UserId): (r: Option<FriendRequest>)
    ensures r.Some? ==> r.value in requests && Between(r.value, a, b)
    ensures r.None? ==> forall i :: 0 <= i < |requests| ==> !Between(requests[i], a, b)
  {
    match IndexWhere(requests, (q: FriendRequest) => Between(q, a, b))
    case None => None
    case Some(k) => Some(requests[k])
  }

  /**
   * `sendRequest`: refused when the first request found between the two
   * users is pending; otherwise a pending request from `me` to `userId` is
   * created and `userId` alone is notified.
   */
  function PlanSendRequest(requests: seq<FriendRequest>, me: UserId, userId: UserId, freshId: string):
    (r: Result<(FriendRequest, Notice)>)
    ensures r.Failure? <==> FirstRequestBetween(requests, me, userId).Some? &&
                            FirstRequestBetween(requests, me, userId).value.status == Pending
    ensures r.Failure? ==> r.error == RequestAlreadySent
    ensures r.Success? ==> r.value.0 == FriendRequest(freshId, me, userId, Pending) &&
                           r.value.1 == Notice(NEW_REQUEST, [userId], Text("request"))
  {
    var existing := FirstRequestBetween(requests, me, userId);
    if existing.Some? && existing.value.status == Pending then Failure(RequestAlreadySent)
    else Success((FriendRequest(freshId, me, userId, Pending), Notice(NEW_REQUEST, [userId], Text("request"))))
  }

  /** With no pending request between the two users, either way round, the request goes through. */
  lemma NoPendingAllowsRequest(requests: seq<FriendRequest>, me: UserId, userId: UserId, freshId: string)
    requires forall i :: 0 <= i < |requests| ==> !(Between(requests[i], me, userId) && requests[i].status == Pending)
    ensures PlanSendRequest(requests, me, userId, freshId).Success?
  {
  }

  /**
   * Only the first request found is looked at: an accepted request ahead
   * of a pending one between the same users lets a duplicate through.
   */
  lemma AcceptedRequestShadowsPending(a: UserId, b: UserId, freshId: string)
    ensures var requests := [FriendRequest("r1", a, b, Accepted), FriendRequest("r2", b, a, Pending)];
            PlanSendRequest(requests, a, b, freshId).Success?
  {
    var requests := [FriendRequest("r1", a, b, Accepted), FriendRequest("r2", b, a, Pending)];
    assert Between(requests[0], a, b);
    assert IndexWhere(requests, (q: FriendRequest) => Between(q, a, b)) == Some(0);
  }

  method SendRequest(db: Database, me: UserId, userId: UserId, freshId: string) returns (r: Result<seq<Notice>>)
    modifies db
    ensures var plan := PlanSendRequest(old(db.requests), me, userId, freshId);
            (plan.Success? ==> r == Success([plan.value.1]) && db.requests == old(db.requests) + [plan.value.0]) &&
            (plan.Failure? ==> r == Failure(plan.error) && db.requests == old(db.requests))
    ensures db.users == old(db.users) && db.chats == old(db.chats) && db.messages == old(db.messages)
  {
    var plan := PlanSendRequest(db.requests, me, userId, freshId);
    if plan.Success? {
      db.requests := db.requests + [plan.value.0];
      r := Success([plan.value.1]);
    } else {
      r := Failure(plan.error);
    }
  }

  // ---------------------------------------------------------------------
  // acceptRequest
  // ---------------------------------------------------------------------

  function FindRequest(requests: seq<FriendRequest>, id: string): (r: Option<nat>)
    ensures r.Some? ==> r.value < |requests| && requests[r.value].id == id
    ensures r.None? ==> forall i :: 0 <= i < |requests| ==> requests[i].id != id
  {
    IndexWhere(requests, (q: FriendRequest) => q.id == id)
  }

  /**
   * What `acceptRequest` does with a request: refuse with an error, accept
   * it (and then create the chat, or fail reading a missing sender), or
   * reject it.
   */
  datatype Verdict = Refused(error: ApiError) | Accept(chat: Result<Chat>) | Reject

  /**
   * `acceptRequest`'s decision: a missing request and a caller other than
   * the receiver are refused (a missing receiver cannot be read); a truthy
   * `accept` accepts and creates the one-to-one chat "<sender>-<receiver>"
   * of the two users, anything falsy rejects.
   */
  function DecideRequest(request: Option<FriendRequest>, users: seq<User>, me: UserId,
                         accept: Validation.Scalar, freshChatId: ChatId): (v: Verdict)
    ensures request.None? ==> v == Refused(RequestNotFound)
    ensures request.Some? && FindUser(users, request.value.receiver).None? ==> v == Refused(NullAccess)
    ensures request.Some? && FindUser(users, request.value.receiver).Some? && me != request.value.receiver ==>
              v == Refused(NotReceiver)
    ensures !v.Refused? <==> request.Some? && FindUser(users, request.value.receiver).Some? && me == request.value.receiver
    ensures v.Accept? <==> !v.Refused? && Validation.IsTruthy(accept)
    ensures v.Accept? ==> (v.chat.Failure? <==> FindUser(users, request.value.sender).None?)
    ensures v.Accept? && v.chat.Success? ==>
              var c := v.chat.value;
              c == Chat(freshChatId, FindUser(users, request.value.sender).value.name + "-" +
                                     FindUser(users, request.value.receiver).value.name,
                        false, None, [request.value.sender, me])
  {
    if request.None? then Refused(RequestNotFound)
    else
      var q := request.value;
      var receiver := FindUser(users, q.receiver);
      if receiver.None? then Refused(NullAccess)
      else if me != receiver.value.id then Refused(NotReceiver)
      else if Validation.IsTruthy(accept) then
        var sender := FindUser(users, q.sender);
        if sender.None? then Accept(Failure(NullAccess))
        else Accept(Success(Chat(freshChatId, sender.value.name + "-" + receiver.value.name, false, None,
                                 [sender.value.id, receiver.value.id])))
      else Reject
  }

  /** The string "false" passes the request validator as a boolean and still accepts the request. */
  lemma FalseTextAccepts(request: FriendRequest, users: seq<User>, freshChatId: ChatId)
    requires FindUser(users, request.receiver).Some?
    ensures Validation.Passes(Validation.IsBoolean, Validation.Single(Validation.Str("false")))
    ensures DecideRequest(Some(request), users, request.receiver, Validation.Str("false"), freshChatId).Accept?
  {
  }

  /**
   * `acceptRequest` on the store: an accepted request is marked accepted
   * in place before the chat is created, so a missing sender leaves an
   * accepted request and no chat; a rejected request is deleted.
   */
  method AcceptRequest(db: Database, me: UserId, requestId: string, accept: Validation.Scalar, freshChatId: ChatId)
    returns (r: Option<ApiError>)
    modifies db
    ensures var at := FindRequest(old(db.requests), requestId);
            var v := DecideRequest(if at.Some? then Some(old(db.requests)[at.value]) else None, old(db.users), me, accept, freshChatId);
            (v.Refused? ==> r == Some(v.error) && db.requests == old(db.requests) && db.chats == old(db.chats)) &&
            (v.Accept? ==> db.requests == old(db.requests)[at.value := old(db.requests)[at.value].(status := Accepted)] &&
                           (v.chat.Success? ==> r == None && db.chats == old(db.chats) + [v.chat.value]) &&
                           (v.chat.Failure? ==> r == Some(v.chat.error) && db.chats == old(db.chats))) &&
            (v.Reject? ==> r == None && db.chats == old(db.chats) &&
                           db.requests == old(db.requests)[..at.value] + old(db.requests)[at.value + 1..])
    ensures db.users == old(db.users) && db.messages == old(db.messages)
  {
    var at := FindRequest(db.requests, requestId);
    var v := DecideRequest(if at.Some? then Some(db.requests[at.value]) else None, db.users, me, accept, freshChatId);
    match v
    case Refused(e) =>
      r := Some(e);
    case Accept(chat) =>
      db.requests := db.requests[at.value := db.requests[at.value].(status := Accepted)];
      if chat.Success? {
        db.chats := db.chats + [chat.value];
        r := None;
      } else {
        r := Some(chat.error);
      }
    case Reject =>
      db.requests := db.requests[..at.value] + db.requests[at.value + 1..];
      r := None;
  }

  // ---------------------------------------------------------------------
  // getMyFriends
  // ---------------------------------------------------------------------

  datatype Friend = Friend(id: UserId, name: string, avatar: Attachment)

  function FriendOf(u: User): Friend {
    Friend(u.id, u.name, u.avatar)
  }

  /** The first populated member of a chat other than `me`, or a failed read when there is none. */
  function OtherMember(c: Chat, users: seq<User>, me: UserId): (r: Result<Friend>)
    ensures r.Success? <==> exists u :: u in Populate(users, c.members) && u.id != me
    ensures r.Success? ==> r.value.id != me && exists u :: u in Populate(users, c.members) && FriendOf(u) == r.value
    ensures r.Success? ==>
              var members := Populate(users, c.members);
              exists k :: 0 <= k < |members| && r.value == FriendOf(members[k]) && members[k].id != me &&
                          forall j :: 0 <= j < k ==> members[j].id == me
  {
    var members := Populate(users, c.members);
    match IndexWhere(members, (u: User) => u.id != me)
    case None => Failure(NullAccess)
    case Some(k) =>
      assert forall j :: 0 <= j < k ==> members[j].id == me;
      Success(FriendOf(members[k]))
  }

  /** One friend per chat, or the first chat that has no other member. */
  function FriendList(chats: seq<Chat>, users: seq<User>, me: UserId): (r: Result<seq<Friend>>)
    ensures r.Success? <==> forall i :: 0 <= i < |chats| ==> OtherMember(chats[i], users, me).Success?
    ensures r.Success? ==> |r.value| == |chats| &&
                           forall i :: 0 <= i < |chats| ==> r.value[i] == OtherMember(chats[i], users, me).value
  {
    MapAll(chats, (c: Chat) => OtherMember(c, users, me))
  }

  /**
   * `getMyFriends`: one friend per one-to-one chat of `me` (the first other
   * member); given a chat id, the friends already in that chat are left
   * out. A chat with no other member, or a chat id naming no chat, cannot
   * be read.
   */
  function GetMyFriends(chats: seq<Chat>, users: seq<User>, me: UserId, chatId: Option<ChatId>): (r: Result<seq<Friend>>)
    ensures FriendList(OneToOneChats(chats, me), users, me).Failure? ==> r.Failure?
    ensures !Truthy(chatId) ==> r == FriendList(OneToOneChats(chats, me), users, me)
    ensures Truthy(chatId) && FindChat(chats, chatId.value).None? ==> r.Failure?
    ensures r.Success? <==> FriendList(OneToOneChats(chats, me), users, me).Success? &&
                            (!Truthy(chatId) || FindChat(chats, chatId.value).Some?)
    ensures Truthy(chatId) && FindChat(chats, chatId.value).Some? && r.Success? ==>
              var all := FriendList(OneToOneChats(chats, me), users, me).value;
              var inChat := Populate(users, chats[FindChat(chats, chatId.value).value].members);
              forall f :: f in r.value <==> f in all && forall u :: u in inChat ==> u.id != f.id
  {
    match FriendList(OneToOneChats(chats, me), users, me)
    case Failure(e) => Failure(e)
    case Success(friends) =>
      if !Truthy(chatId) then Success(friends)
      else match FindChat(chats, chatId.value)
        case None => Failure(NullAccess)
        case Some(k) =>
          var inChat := Populate(users, chats[k].members);
          Success(Filter(friends, (f: Friend) => forall u :: u in inChat ==> u.id != f.id))
  }
}

=== FILE: validator.dfy ===
/**
 * The request validators of src/utils/validator.js: each route's rule list,
 * and `validatorHandler`, which turns the collected failures into a single
 * 400 error.
 *
 * A rule names a field and a chain of checks. As in express-validator, the
 * checks of a chain all run (none stops the chain); a standard check
 * (`notEmpty`, `isBoolean`) on an array value runs once per element and
 * fails once per failing element, while `isArray` judges the whole value.
 */
module Validation {
  import opened Base

  /** A JSON value that is not an array. */
  datatype Scalar = Undefined | Null | Str(text: string) | Num(n: int) | Bool(b: bool) | Obj

  /** A request field: one scalar, or an array of scalars. */
  datatype JsValue = Single(value: Scalar) | Arr(items: seq<Scalar>)

  /** The string form of the value is empty: undefined, null and "" only. */
  predicate EmptyText(x: Scalar) {
    x.Undefined? || x.Null? || (x.Str? && x.text == "")
  }

  /** `isBoolean()` in its default, strict-text form: "true", "false", "1", "0". */
  predicate BooleanText(x: Scalar) {
    match x
    case Str(t) => t == "true" || t == "false" || t == "1" || t == "0"
    case Num(n) => n == 0 || n == 1
    case Bool(_) => true
    case _ => false
  }

  /** JavaScript truthiness of a scalar: "false" and "0" are non-empty strings and so truthy. */
  predicate IsTruthy(x: Scalar) {
    match x
    case Undefined => false
    case Null => false
    case Str(t) => t != ""
    case Num(n) => n != 0
    case Bool(b) => b
    case Obj => true
  }

  datatype Check = NotEmpty | IsBoolean | IsArray(min: nat, max: nat)

  /** One check of a chain and the message it reports. */
  datatype Step = Step(check: Check, message: string)

  /** `body(...)` reads the body, `param(...)` the route parameters, `check(...)` any location. */
  datatype Location = Body | Params | AnyLocation

  datatype Rule = Rule(location: Location, field: string, steps: seq<Step>)

  datatype Request = Request(body: map<string, JsValue>, params: map<string, JsValue>)

  function Field(fields: map<string, JsValue>, name: string): JsValue {
    if name in fields then fields[name] else Single(Undefined)
  }

  function FieldValue(req: Request, loc: Location, name: string): JsValue {
    match loc
    case Body => Field(req.body, name)
    case Params => Field(req.params, name)
    case AnyLocation => if name in req.body then req.body[name] else Field(req.params, name)
  }

  /** The values a standard check runs on. */
  function Items(v: JsValue): (xs: seq<Scalar>)
    ensures v.Single? ==> xs == [v.value]
  {
    if v.Arr? then v.items else [v.value]
  }

  /** Reference meaning of a check passing on a value. */
  predicate Passes(c: Check, v: JsValue) {
    match c
    case NotEmpty => forall i :: 0 <= i < |Items(v)| ==> !EmptyText(Items(v)[i])
    case IsBoolean => forall i :: 0 <= i < |Items(v)| ==> BooleanText(Items(v)[i])
    case IsArray(lo, hi) => v.Arr? && lo <= |v.items| <= hi
  }

  /** A value every element of which has non-empty text. */
  predicate Filled(v: JsValue) {
    Passes(NotEmpty, v)
  }

  function Repeat(m: string, n: nat): (ms: seq<string>)
    ensures |ms| == n && forall i :: 0 <= i < n ==> ms[i] == m
  {
    seq(n, _ => m)
  }

  /** The messages one check reports on a value. */
  function StepMessages(step: Step, v: JsValue): (ms: seq<string>)
    ensures forall i :: 0 <= i < |ms| ==> ms[i] == step.message
    ensures ms == [] <==> Passes(step.check, v)
    ensures step.check.IsArray? ==> |ms| <= 1
  {
    match step.check
    case NotEmpty => Repeat(step.message, Count(Items(v), EmptyText))
    case IsBoolean => Repeat(step.message, Count(Items(v), x => !BooleanText(x)))
    case IsArray(lo, hi) => if v.Arr? && lo <= |v.items| <= hi then [] else [step.message]
  }

  /** The messages a chain of checks reports, check by check. */
  function ChainMessages(steps: seq<Step>, v: JsValue): (ms: seq<string>)
    ensures ms == [] <==> forall i :: 0 <= i < |steps| ==> Passes(steps[i].check, v)
  {
    if steps == [] then []
    else
      var init, last := steps[..|steps| - 1], steps[|steps| - 1];
      assert (forall i :: 0 <= i < |steps| ==> Passes(steps[i].check, v)) <==>
             (forall i :: 0 <= i < |init| ==> Passes(init[i].check, v)) && Passes(last.check, v) by {
        assert forall i :: 0 <= i < |init| ==> init[i] == steps[i];
      }
      ChainMessages(init, v) + StepMessages(last, v)
  }

  /** The messages `validationResult` collects over a rule list, rule by rule. */
  function Errors(rules: seq<Rule>, req: Request): (ms: seq<string>)
    ensures ms == [] <==> forall i :: 0 <= i < |rules| ==> RulePasses(rules[i], req)
  {
    if rules == [] then []
    else
      var init, last := rules[..|rules| - 1], rules[|rules| - 1];
      assert (forall i :: 0 <= i < |rules| ==> RulePasses(rules[i], req)) <==>
             (forall i :: 0 <= i < |init| ==> RulePasses(init[i], req)) && RulePasses(last, req) by {
        assert forall i :: 0 <= i < |init| ==> init[i] == rules[i];
      }
      Errors(init, req) + ChainMessages(last.steps, FieldValue(req, last.location, last.field))
  }

  predicate RulePasses(rule: Rule, req: Request) {
    forall i :: 0 <= i < |rule.steps| ==> Passes(rule.steps[i].check, FieldValue(req, rule.location, rule.field))
  }

  /** `messages.join(sep)`. */
  function Join(ms: seq<string>, sep: string): string {
    if ms == [] then ""
    else if |ms| == 1 then ms[0]
    else Join(ms[..|ms| - 1], sep) + sep + ms[|ms| - 1]
  }

  /**
   * `validatorHandler`: no error when every rule passes, otherwise a 400
   * error whose message lists every failure's message, joined by ", ".
   */
  function ValidatorHandler(rules: seq<Rule>, req: Request): (r: Option<ApiError>)
    ensures r.None? <==> forall i :: 0 <= i < |rules| ==> RulePasses(rules[i], req)
    ensures r.None? <==> forall rule :: rule in rules ==> RulePasses(rule, req)
    ensures r.Some? ==> r.value.status == Code(400) && r.value.message == Join(Errors(rules, req), ", ")
  {
    var errors := Errors(rules, req);
    if errors == [] then None else Some(HttpError(400, Join(errors, ", ")))
  }

  // ---------------------------------------------------------------------
  // The rule lists
  // ---------------------------------------------------------------------

  function Required(loc: Location, field: string, message: string): Rule {
    Rule(loc, field, [Step(NotEmpty, message)])
  }

  const RegisterRules := [
    Required(Body, "name", "Name is required"),
    Required(Body, "username", "Username is required"),
    Required(Body, "password", "Password is required"),
    Required(Body, "bio", "Bio is required"),
    Rule(AnyLocation, "avatar", [])
  ]

  const LoginRules := [
    Required(Body, "username", "Username is required"),
    Required(Body, "password", "Password is required")
  ]

  const CreateGroupRules := [
    Required(Body, "name", "Name is required"),
    Rule(Body, "members", [Step(NotEmpty, "Please add some members"),
                           Step(IsArray(2, 100), "Members must be between 2 and 100")])
  ]

  const AddMembersRules := [
    Required(Body, "chatId", "ChatId is required"),
    Rule(Body, "members", [Step(NotEmpty, "Please add some members"),
                           Step(IsArray(1, 100), "Members must be between 2 and 100")])
  ]

  const RemoveMemberRules := [
    Required(Body, "chatId", "ChatId is required"),
    Required(Body, "userId", "UserId is required")
  ]

  const AccessChatRules := [Required(Params, "id", "Id is required")]

  const LeaveGroupRules := [Required(Params, "id", "ChatId is required")]

  const RenameGroupRules := [
    Required(Params, "id", "Id is required"),
    Required(Body, "name", "Name is required")
  ]

  const DeleteChatRules := [Required(Params, "id", "Id is required")]

  const SendAttachmentsRules := [
    Required(Body, "chatId", "ChatId is required"),
    Rule(AnyLocation, "files", [])
  ]

  const GetMessagesRules := [Required(Params, "id", "Id is required")]

  const SendRequestRules := [Required(Body, "userId", "UserId is required")]

  const AcceptRequestRules := [
    Required(Body, "requestId", "RequestId is required"),
    Rule(Body, "accept", [Step(NotEmpty, "Accept is required"), Step(IsBoolean, "Accept must be boolean")])
  ]

  // ---------------------------------------------------------------------
  // What each rule list admits
  // ---------------------------------------------------------------------

  lemma RequiredPasses(loc: Location, field: string, message: string, req: Request)
    ensures RulePasses(Required(loc, field, message), req) <==> Filled(FieldValue(req, loc, field))
  {
    var rule := Required(loc, field, message);
    if Filled(FieldValue(req, loc, field)) {
      forall i | 0 <= i < |rule.steps|
        ensures Passes(rule.steps[i].check, FieldValue(req, loc, field))
      {
        assert i == 0;
      }
    } else {
      assert !Passes(rule.steps[0].check, FieldValue(req, loc, field));
    }
  }

  lemma ChainOfTwoPasses(loc: Location, field: string, first: Step, second: Step, req: Request)
    ensures RulePasses(Rule(loc, field, [first, second]), req) <==>
              Passes(first.check, FieldValue(req, loc, field)) && Passes(second.check, FieldValue(req, loc, field))
  {
    var rule := Rule(loc, field, [first, second]);
    assert rule.steps[0] == first && rule.steps[1] == second;
  }

  /** Registration needs a filled name, username, password and bio; the avatar is never checked. */
  lemma RegisterAdmits(req: Request)
    ensures ValidatorHandler(RegisterRules, req).None? <==>
              Filled(Field(req.body, "name")) && Filled(Field(req.body, "username")) &&
              Filled(Field(req.body, "password")) && Filled(Field(req.body, "bio"))
  {
    RequiredPasses(Body, "name", "Name is required", req);
    RequiredPasses(Body, "username", "Username is required", req);
    RequiredPasses(Body, "password", "Password is required", req);
    RequiredPasses(Body, "bio", "Bio is required", req);
    assert RulePasses(RegisterRules[4], req);
  }

  lemma LoginAdmits(req: Request)
    ensures ValidatorHandler(LoginRules, req).None? <==>
              Filled(Field(req.body, "username")) && Filled(Field(req.body, "password"))
  {
    RequiredPasses(Body, "username", "Username is required", req);
    RequiredPasses(Body, "password", "Password is required", req);
  }

  /** Group creation needs a filled name and a members array of 2 to 100 filled entries. */
  lemma CreateGroupAdmits(req: Request)
    ensures ValidatorHandler(CreateGroupRules, req).None? <==>
              Filled(Field(req.body, "name")) &&
              Field(req.body, "members").Arr? && 2 <= |Field(req.body, "members").items| <= 100 &&
              Filled(Field(req.body, "members"))
  {
    RequiredPasses(Body, "name", "Name is required", req);
    ChainOfTwoPasses(Body, "members", Step(NotEmpty, "Please add some members"),
                     Step(IsArray(2, 100), "Members must be between 2 and 100"), req);
  }

  /** Adding members needs a filled chat id and a members array of 1 to 100 filled entries. */
  lemma AddMembersAdmits(req: Request)
    ensures ValidatorHandler(AddMembersRules, req).None? <==>
              Filled(Field(req.body, "chatId")) &&
              Field(req.body, "members").Arr? && 1 <= |Field(req.body, "members").items| <= 100 &&
              Filled(Field(req.body, "members"))
  {
    RequiredPasses(Body, "chatId", "ChatId is required", req);
    ChainOfTwoPasses(Body, "members", Step(NotEmpty, "Please add some members"),
                     Step(IsArray(1, 100), "Members must be between 2 and 100"), req);
  }

  lemma RemoveMemberAdmits(req: Request)
    ensures ValidatorHandler(RemoveMemberRules, req).None? <==>
              Filled(Field(req.body, "chatId")) && Filled(Field(req.body, "userId"))
  {
    RequiredPasses(Body, "chatId", "ChatId is required", req);
    RequiredPasses(Body, "userId", "UserId is required", req);
  }

  /** The route-parameter validators need only a filled `id`. */
  lemma IdParamAdmits(req: Request)
    ensures ValidatorHandler(AccessChatRules, req).None? <==> Filled(Field(req.params, "id"))
    ensures ValidatorHandler(LeaveGroupRules, req).None? <==> Filled(Field(req.params, "id"))
    ensures ValidatorHandler(DeleteChatRules, req).None? <==> Filled(Field(req.params, "id"))
    ensures ValidatorHandler(GetMessagesRules, req).None? <==> Filled(Field(req.params, "id"))
  {
    RequiredPasses(Params, "id", "Id is required", req);
    RequiredPasses(Params, "id", "ChatId is required", req);
  }

  lemma RenameGroupAdmits(req: Request)
    ensures ValidatorHandler(RenameGroupRules, req).None? <==>
              Filled(Field(req.params, "id")) && Filled(Field(req.body, "name"))
  {
    RequiredPasses(Params, "id", "Id is required", req);
    RequiredPasses(Body, "name", "Name is required", req);
  }

  /** Sending attachments needs a filled chat id; the files are never checked. */
  lemma SendAttachmentsAdmits(req: Request)
    ensures ValidatorHandler(SendAttachmentsRules, req).None? <==> Filled(Field(req.body, "chatId"))
  {
    RequiredPasses(Body, "chatId", "ChatId is required", req);
    assert RulePasses(SendAttachmentsRules[1], req);
  }

  lemma SendRequestAdmits(req: Request)
    ensures ValidatorHandler(SendRequestRules, req).None? <==> Filled(Field(req.body, "userId"))
  {
    RequiredPasses(Body, "userId", "UserId is required", req);
  }

  /** Accepting a request needs a filled request id and an `accept` that is filled and boolean text. */
  lemma AcceptRequestAdmits(req: Request)
    ensures ValidatorHandler(AcceptRequestRules, req).None? <==>
              Filled(Field(req.body, "requestId")) && Filled(Field(req.body, "accept")) &&
              Passes(IsBoolean, Field(req.body, "accept"))
  {
    RequiredPasses(Body, "requestId", "RequestId is required", req);
    ChainOfTwoPasses(Body, "accept", Step(NotEmpty, "Accept is required"),
                     Step(IsBoolean, "Accept must be boolean"), req);
  }

  lemma MissingFailsNotEmpty(message: string)
    ensures StepMessages(Step(NotEmpty, message), Single(Undefined)) == [message]
  {
    assert Items(Single(Undefined)) == [Undefined];
    assert [Undefined][..0] == [];
  }

  lemma ChainOfTwoMessages(first: Step, second: Step, v: JsValue)
    ensures ChainMessages([first, second], v) == StepMessages(first, v) + StepMessages(second, v)
  {
    assert [first, second][..1] == [first];
    assert [first][..0] == [];
  }

  lemma ErrorsOfTwo(r0: Rule, r1: Rule, req: Request)
    ensures Errors([r0, r1], req) ==
              ChainMessages(r0.steps, FieldValue(req, r0.location, r0.field)) +
              ChainMessages(r1.steps, FieldValue(req, r1.location, r1.field))
  {
    assert [r0, r1][..1] == [r0];
    assert [r0][..0] == [];
  }

  lemma JoinThree(a: string, b: string, c: string, sep: string)
    ensures Join([a, b, c], sep) == a + sep + b + sep + c
  {
    assert [a, b, c][..2] == [a, b];
    assert [a, b][..1] == [a];
    assert Join([a], sep) == a;
    assert Join([a, b], sep) == a + sep + b;
  }

  /** A group-creation request with an empty body reports all three failures, in rule order. */
  lemma EmptyGroupRequestMessage()
    ensures Errors(CreateGroupRules, Request(map[], map[])) ==
              ["Name is required", "Please add some members", "Members must be between 2 and 100"]
    ensures ValidatorHandler(CreateGroupRules, Request(map[], map[])) ==
              Some(HttpError(400, "Name is required" + ", " + "Please add some members" + ", " + "Members must be between 2 and 100"))
  {
    var req := Request(map[], map[]);
    MissingFailsNotEmpty("Name is required");
    MissingFailsNotEmpty("Please add some members");
    assert ChainMessages([Step(NotEmpty, "Name is required")], Single(Undefined)) == ["Name is required"];
    ChainOfTwoMessages(Step(NotEmpty, "Please add some members"),
                       Step(IsArray(2, 100), "Members must be between 2 and 100"), Single(Undefined));
    ErrorsOfTwo(CreateGroupRules[0], CreateGroupRules[1], req);
    JoinThree("Name is required", "Please add some members", "Members must be between 2 and 100", ", ");
  }
}
